=== FILE: README.md ===
# Curated Discoveries: a verified model of its client-side logic

Curated Discoveries is a social web application. Users build ranked lists of
items ("curations"), like and share them, comment on them and follow each
other. Almost all of it is React UI over a hosted database. This project
models, in Dafny, the small pieces of logic in it whose behaviour can be
stated exactly, and proves properties about them:

- **The ranked-item editor of the "create curation" page** (`CurationList`, `curation_list.dfy`):
  - the initial three blank items;
  - `addItem`, `removeItem` and `moveItem` over a sequence of `{id, title, description}` records.
- **The cache configuration** (`CacheConfig`, `cache_config.dfy`):
  - the settings table and the `Cache-Control` header built from it;
  - the 32-bit string hash that versions static assets, with its base-36 rendering.
  - It builds on two shared modules:
    - `Text` (`text.dfy`): the ECMAScript whitespace set, `trim`, ASCII `toLowerCase` and UTF-16 code units;
    - `Radix` (`radix.dfy`): digit strings in bases 2 to 36 with their round trips.
- **The sign-up form** (`Signup`, `signup.dfy`):
  - the ordered chain of checks in `handleSignup`, with the e-mail and username patterns;
  - the arguments handed to `signUp`.
- **The "add item" form** (`AddItemForm`, `add_item_form.dfy`):
  - the image-upload gates and the storage path;
  - the position a new item is inserted at.
- **The social facade** (`Social`, `social.dfy`):
  - likes, follows, comments and shares, written to an abstract store of pair sets and comment rows;
  - the two lookups and the per-user statistics.
- **The like/save/share bar** (`SocialActions`, `social_actions.dfy`) and **the follow button** (`FollowButton`, `follow_button.dfy`):
  - optimistic flags and a counter, updated after the remote call returns.
- **The authentication provider** (`Auth`, `auth.dfy`):
  - the record `(user, session, profile, loading, profileLoading)`, driven by auth events and by the outcomes of its own operations, applied one at a time.

Everything is modelled with immutable datatypes and pure functions. Each
remote call's outcome is an input: `Reply` is `Done` or `Failed(message)`
(module `Wrappers`). These values become parameters:

| value in the source | parameter in the model |
|---|---|
| `Math.random()` in the upload name | `nonce` |
| the comment timestamp | `now` |
| `window.location.origin` | `origin` |
| `encodeURIComponent` | `encode` |
| ids the database assigns | `newId` |

## Notes on the code

A few behaviours of the code that are easy to misread:

- **Usernames:** any non-empty run of `[a-z0-9_.]` after lowercasing, with no length limit (src/pages/SignupPage.tsx:56).
- **Passwords:** only a minimum of 6, counted in UTF-16 code units, and no maximum (src/pages/SignupPage.tsx:38).
- **E-mail:** the address is trimmed but never lowercased.
- **Sign-out:**
  - `signOut` clears only the profile (src/contexts/AuthContext.tsx:171).
  - User and session are cleared by the SIGNED_OUT event that follows (lines 73-74 and 85-87).
  - `Auth.SignOutThenEventClearsIdentity` states the two steps.

## Model

| member | source | states |
|---|---|---|
| CurationList.InitialItemsShape | src/pages/CreateCurationPage.tsx:12-16 | the page opens with exactly three blank items numbered 1, 2, 3, whose ids are distinct |
| CurationList.MaxId | src/pages/CreateCurationPage.tsx:19 | the maximum id is one of the ids and no id exceeds it |
| CurationList.AddItem | src/pages/CreateCurationPage.tsx:18-21 | exactly one blank item is appended and earlier items are unchanged; its id exceeds every existing id, is 1 on an empty list and otherwise is one past an existing id |
| CurationList.AddItemKeepsDistinct | src/pages/CreateCurationPage.tsx:18-21 | pairwise-distinct ids stay distinct after `addItem` |
| CurationList.RemoveItem | src/pages/CreateCurationPage.tsx:23-25 | no item with the id survives, an item survives iff it was there with another id, and an absent id leaves the list unchanged |
| CurationList.RemoveItemKeepsOrder | src/pages/CreateCurationPage.tsx:23-25 | the survivors keep their original relative order (the result is a subsequence) |
| CurationList.RemoveItemCount | src/pages/CreateCurationPage.tsx:23-25 | the length drops by exactly the number of items carrying the id |
| CurationList.RemoveItemKeepsDistinct | src/pages/CreateCurationPage.tsx:23-25 | pairwise-distinct ids stay distinct after `removeItem` |
| CurationList.IndexOf | src/pages/CreateCurationPage.tsx:28 | `findIndex` gives the first position holding the id |
| CurationList.MoveItem | src/pages/CreateCurationPage.tsx:27-40 | 'up' on the first or 'down' on the last item changes nothing. Otherwise the item swaps with its neighbour above or below, and length, multiset of items and all other positions are unchanged |
| CurationList.MoveById | src/pages/CreateCurationPage.tsx:27-40 | `moveItem` for any id. A present id behaves as `MoveItem`. An absent id leaves the list as it was, except 'down' on a non-empty list, which leaves slot 0 undefined |
| CurationList.MoveItemKeepsDistinct | src/pages/CreateCurationPage.tsx:36-39 | pairwise-distinct ids stay distinct after `moveItem` |
| CurationList.MoveUpThenDown | src/pages/CreateCurationPage.tsx:27-40 | moving up and then down restores the list whenever the first move was not refused |
| CurationList.MoveDownThenUp | src/pages/CreateCurationPage.tsx:27-40 | moving down and then up restores the list when ids are distinct and the first move was not refused |
| CacheConfig.Settings | src/config/cache.config.ts:2-25 | development has max-age 0 and no stale window; production's stale window is positive and shorter than its max-age |
| CacheConfig.ResolveEnvironment | src/config/cache.config.ts:30 | the environment is development iff development was passed; omitted means production |
| CacheConfig.GenerateCacheControl | src/config/cache.config.ts:28-34 | the header reads back as the settings of the resolved (environment, type) entry, and no other text reads back the same, so the header text is pinned |
| CacheConfig.ParseCacheControlCanonical | src/config/cache.config.ts:33 | every header the reader accepts is exactly `public, max-age=M, stale-while-revalidate=S` with M and S written without leading zeros |
| CacheConfig.HeaderRoundTrip | src/config/cache.config.ts:33 | `public, max-age=M, stale-while-revalidate=S` parses back to (M, S) for every pair of naturals |
| CacheConfig.DevelopmentCachesNothing | src/config/cache.config.ts:3-13 | in development both values are 0 for both asset types |
| CacheConfig.ProductionSettings | src/config/cache.config.ts:14-30 | production gives 31536000/86400 for static assets and 300/60 for API responses, and an omitted environment means production |
| CacheConfig.ToInt32 | src/config/cache.config.ts:43 | `hash & hash` lands in [-2^31, 2^31) and is congruent to its operand modulo 2^32 |
| CacheConfig.HashStepIsTimes31 | src/config/cache.config.ts:42-43 | the step `((hash << 5) - hash) + char` followed by `hash & hash` equals toInt32(31 * hash + char) |
| CacheConfig.HashUnits | src/config/cache.config.ts:39-44 | the folded hash of any code-unit sequence is a 32-bit signed integer |
| CacheConfig.HashAppend | src/config/cache.config.ts:40-44 | appending code unit c gives toInt32(31 * hash(s) + c) |
| CacheConfig.Base36 | src/config/cache.config.ts:45 | `toString(36)` is a '-' exactly for negative values, then canonical base-36 digits with no leading zero |
| CacheConfig.Base36RoundTrip | src/config/cache.config.ts:45 | reading a rendering back gives the integer rendered |
| CacheConfig.ParseBase36Canonical | src/config/cache.config.ts:45 | every string of the rendering's shape is the rendering of the value it denotes, so the rendering is injective |
| CacheConfig.GenerateVersionHash | src/config/cache.config.ts:37-46 | the version hash reads back as the 32-bit hash of the content's UTF-16 code units |
| CacheConfig.EmptyContentHash | src/config/cache.config.ts:37-46 | the version hash of the empty string is "0" |
| CacheConfig.ComputeVersionHash | src/config/cache.config.ts:37-46 | the loop over `charCodeAt` computes the left fold of the hash step, and its result reads back as that hash |
| Text.Trim | src/pages/SignupPage.tsx:32 | `trim` is the slice left after dropping whitespace at both ends: no whitespace at its ends, only whitespace after it, empty exactly for an all-whitespace string |
| Text.TrimIdempotent | src/pages/SignupPage.tsx:64-67 | trimming twice is trimming once |
| Text.TrimNoSpace | src/pages/SignupPage.tsx:67 | a string without whitespace is its own trim |
| Text.Lower | src/pages/SignupPage.tsx:57 | `toLowerCase` keeps the length and lowercases each character in place (ASCII) |
| Text.Utf16 | src/config/cache.config.ts:40-41 | `charCodeAt` runs over UTF-16 code units below 2^16, between one and two per character |
| Text.Utf16RoundTrip | src/config/cache.config.ts:40-41 | decoding the code units, with surrogate pairs combined, gives the string back |
| Text.FromUtf16Exact | src/config/cache.config.ts:40-41 | any well-formed unit sequence is the encoding of what it decodes to, so each string has exactly one UTF-16 form and it is `Text.Utf16`'s |
| Text.Utf16Bmp | src/config/cache.config.ts:40-41 | on Basic Multilingual Plane text the code units are the characters themselves |
| Radix.Digits | src/config/cache.config.ts:33 | a number renders as canonical digits, and as "0" exactly when it is 0 |
| Radix.ValueOfDigits | src/config/cache.config.ts:45 | reading back the digits of n gives n |
| Radix.DigitsOfValue | src/config/cache.config.ts:45 | rendering the value of canonical digits gives back the same digits |
| Signup.EmailCheckMatchesPattern | src/pages/SignupPage.tsx:49-53 | the scanning check accepts exactly the strings `^[^\s@]+@[^\s@]+\.[^\s@]+$` matches |
| Signup.Validate | src/pages/SignupPage.tsx:31-60 | each failure is reported iff every earlier check passed and its own check failed, in the order fields, length, confirmation, e-mail, username. Success iff all pass, and then the trimmed e-mail, the password, the trimmed name and the lowercased username |
| Signup.UsernameUntrimmed | src/pages/SignupPage.tsx:67 | a username that passed the pattern is unchanged by the final `trim` |
| Signup.AcceptedArgumentsAreNormal | src/pages/SignupPage.tsx:62-68 | accepted arguments are normal: the username matches `[a-z0-9_.]+`, the name and e-mail have no surrounding whitespace, the e-mail matches the pattern and the password is unchanged |
| Signup.SurroundingSpaceRejected | src/pages/SignupPage.tsx:56-60 | a username with leading or trailing whitespace fails the username check even though it passed the required-field check |
| Signup.CapitalsAccepted | src/pages/SignupPage.tsx:56-60 | capitals in the username are accepted and arrive lowercased |
| Signup.HandleSignup | src/pages/SignupPage.tsx:27-73 | a failed check never calls `signUp` and shows its message. A thrown error shows its message, or "Failed to create account" when it has none. The message is empty only after a successful call |
| AddItemForm.Extension | src/components/curations/AddItemForm.tsx:66 | `split('.').pop()` is a dot-free suffix of the name, preceded by a '.' unless it is the whole name |
| AddItemForm.ExtensionAfterDot | src/components/curations/AddItemForm.tsx:66 | a name `base.ext` has extension `ext`, whatever `base` holds |
| AddItemForm.ExtensionWithoutDot | src/components/curations/AddItemForm.tsx:66 | a name without '.' is its own extension |
| AddItemForm.UploadPathOfDottedName | src/components/curations/AddItemForm.tsx:66-68 | the storage path is `items/<user>-item-<nonce>.<ext>` for a file named `base.ext` |
| AddItemForm.CheckUpload | src/components/curations/AddItemForm.tsx:45-68 | no user, then a non-image MIME type, then more than 5 MiB: each outcome holds iff the earlier checks passed and its own failed. Otherwise the upload goes to the built path |
| AddItemForm.CheckOrder | src/components/curations/AddItemForm.tsx:55-64 | a non-image over the limit reports the type error, exactly 5 MiB passes, and one byte more is too large |
| AddItemForm.HandleImageUpload | src/components/curations/AddItemForm.tsx:45-99 | no upload is attempted when a check fails. After passing checks, a successful upload sets the form's image URL to the returned public URL, and a failed one leaves it; the URL never changes otherwise |
| AddItemForm.Positions | src/components/curations/AddItemForm.tsx:106-109 | the query sees exactly the positions of the curation's rows |
| AddItemForm.Highest | src/components/curations/AddItemForm.tsx:110-111 | the top row of the descending order is a position no other exceeds |
| AddItemForm.NextPosition | src/components/curations/AddItemForm.tsx:115 | the new position is greater than every existing one, is 0 for an empty curation and otherwise is one past an existing position |
| AddItemForm.Submit | src/components/curations/AddItemForm.tsx:101-138 | no user does nothing, and a failing query or insert leaves the table unchanged with the error or "Failed to add item". Otherwise one row is appended with the curation, the form fields and the position one past the curation's highest (0 when it has none), which is above all of its positions |
| AddItemForm.SubmitKeepsPositionsDistinct | src/components/curations/AddItemForm.tsx:101-129 | successive submits through the form never give two items of a curation the same position |
| Social.LikeCuration | src/contexts/SocialContext.tsx:32-52 | the write happens iff a user is present and the insert succeeds; it adds exactly the pair (user, curation) and touches no other table |
| Social.UnlikeCuration | src/contexts/SocialContext.tsx:54-72 | the write happens iff a user is present and the delete succeeds; afterwards the pair is absent, every other pair is unchanged and no other table changes |
| Social.FollowUser | src/contexts/SocialContext.tsx:140-165 | a self-follow is refused without writing; otherwise the write adds exactly (user, target) iff a user is present and the insert succeeds |
| Social.UnfollowUser | src/contexts/SocialContext.tsx:167-185 | removes exactly the pair (user, target) on success and leaves every other follow |
| Social.IsLiked | src/contexts/SocialContext.tsx:232-248 | false without a user or when the lookup fails; what a successful lookup sees is fixed by `Social.LikeIsSeen` |
| Social.IsFollowing | src/contexts/SocialContext.tsx:250-266 | false without a user or when the lookup fails; what a successful lookup sees is fixed by `Social.FollowIsSeen` |
| Social.LikeThenUnlike | src/contexts/SocialContext.tsx:32-72 | liking then unliking a curation not liked before restores the store |
| Social.LikeIsSeen | src/contexts/SocialContext.tsx:32-72 | a successful like is seen by `isLiked` and a successful unlike is not |
| Social.FollowIsSeen | src/contexts/SocialContext.tsx:140-185 | a successful follow of another user is seen by `isFollowing`, an unfollow is not, and a self-follow never is |
| Social.AddComment | src/contexts/SocialContext.tsx:74-98 | on success exactly one comment is appended, with the trimmed content, the current user as author and the given curation; earlier comments are unchanged |
| Social.EditMatching | src/contexts/SocialContext.tsx:105-108 | the update rewrites exactly the rows matching both id and author and no others |
| Social.UpdateComment | src/contexts/SocialContext.tsx:100-118 | rows with another id or another author are unchanged, and on success each matching row gets exactly the trimmed content and the new `updated_at`, with every other column kept |
| Social.DropMatching | src/contexts/SocialContext.tsx:125-128 | the delete keeps exactly the rows not matching both id and author, each as many times as it was there |
| Social.DeleteComment | src/contexts/SocialContext.tsx:120-138 | comments by others or with other ids survive and nothing new appears. On success no row matching both id and author remains, and every other row stays exactly as many times as before |
| Social.ShareTarget | src/contexts/SocialContext.tsx:209-223 | twitter, facebook and linkedin each open their own endpoint with the encoded link; every other platform copies the link |
| Social.ShareCuration | src/contexts/SocialContext.tsx:187-230 | on success one share row is appended and the link to `<origin>/curation/<id>` is opened or copied; otherwise nothing is recorded or opened |
| Social.NoUserOrFailureNoChange | src/contexts/SocialContext.tsx:32-230 | no write of any kind changes the store without a user or when the remote call fails |
| Social.OthersCommentsUntouched | src/contexts/SocialContext.tsx:74-138 | nothing the current user writes removes or changes another user's comment |
| Social.GetUserStats | src/contexts/SocialContext.tsx:292-321 | each count is the true count of its query when the query returned one and 0 otherwise; an error gives all zeros |
| Social.FollowCounts | src/contexts/SocialContext.tsx:300-301 | a new follow adds one to the target's follower count and one to the follower's following count |
| SocialActions.Init | src/components/social/SocialActions.tsx:25-28 | the counter starts at the prop and both flags start false |
| SocialActions.HandleLike | src/components/social/SocialActions.tsx:61-85 | no user does nothing, and a failed call changes nothing. A successful like adds 1 and sets the flag; a successful unlike clamps at max(0, n-1) and clears it. The saved flag is untouched and a non-negative counter stays non-negative |
| SocialActions.HandleSave | src/components/social/SocialActions.tsx:104-126 | only the saved flag changes, and only when a user is present and the call succeeded |
| SocialActions.HandleShare | src/components/social/SocialActions.tsx:87-102 | a share through the "copy" platform is requested iff a user is present |
| SocialActions.ShareCopiesLink | src/components/social/SocialActions.tsx:87-102 | the share click, carried through the facade, records one "copy" share by the user and copies `<origin>/curation/<id>`, leaving the bar's state unchanged |
| SocialActions.LoadStatus | src/components/social/SocialActions.tsx:34-59 | with a user each flag takes the lookup's value, and a lookup that threw leaves its flag; the counter is untouched |
| SocialActions.LikeThenUnlike | src/components/social/SocialActions.tsx:69-78 | for a non-negative counter, like then unlike restores counter and flag |
| SocialActions.UnlikeClampsAtZero | src/components/social/SocialActions.tsx:71 | unliking at 0 keeps the counter at 0 |
| SocialActions.RunKeepsCounterNonNegative | src/components/social/SocialActions.tsx:34-126 | over any sequence of clicks, replies and status loads, a counter that starts non-negative stays non-negative |
| SocialActions.SavesLeaveLikesAlone | src/components/social/SocialActions.tsx:104-126 | any run of save clicks leaves the counter and the liked flag alone |
| SocialActions.FailedLikeStillCounted | src/components/social/SocialActions.tsx:67-80 | wired to the facade as written, a failed like still shows liked and counted while the likes table is unchanged |
| SocialActions.LikeReportedKeepsSync | src/components/social/SocialActions.tsx:67-80 | updating only on a written like keeps the flag in step with the likes table, and the counter moves only when the table does |
| FollowButton.Init | src/components/social/FollowButton.tsx:14-23 | `following` starts at `initialFollowing`, defaulting to false, and the status check is pending |
| FollowButton.CheckStatus | src/components/social/FollowButton.tsx:25-41 | with a user, `following` takes the lookup's value (kept if it threw) and checking ends; without one nothing changes |
| FollowButton.Render | src/components/social/FollowButton.tsx:68-95 | nothing is rendered iff there is no user or the profile is the user's own. Otherwise a spinner shows iff the status check or a click is pending, and else a label reading "Unfollow" exactly when following |
| FollowButton.CheckStatusSeesFollows | src/components/social/FollowButton.tsx:25-41 | checked through the facade's `isFollowing`, the flag ends as whether a successful lookup saw the follow row, and false after a failed lookup |
| FollowButton.HandleFollow | src/components/social/FollowButton.tsx:43-66 | no user does nothing. Otherwise it unfollows when following and follows when not. Only a successful call flips the flag and passes the new value to `onFollowChange` |
| FollowButton.ClickTwice | src/components/social/FollowButton.tsx:43-66 | two successful clicks restore the state, one following and the other unfollowing the same profile |
| FollowButton.FailedFollowStillShown | src/components/social/FollowButton.tsx:49-59 | wired to the facade as written, a failed follow still shows "Unfollow" and reports the follow, while the follows table is unchanged |
| FollowButton.FollowReportedKeepsSync | src/components/social/FollowButton.tsx:49-59 | flipping only on a written follow or unfollow keeps the flag in step with the follows table, and nothing is flipped or reported unless the table changed |
| Auth.Initial | src/contexts/AuthContext.tsx:32-36 | no user, session or profile; loading true and profileLoading false |
| Auth.FetchUserProfile | src/contexts/AuthContext.tsx:39-61 | the profile is replaced only when the lookup returns a row, is kept otherwise, and belongs to the requested user for a well-keyed table. profileLoading ends false and nothing else changes |
| Auth.RefreshProfile | src/contexts/AuthContext.tsx:63-67 | without a user nothing changes; with one it is the fetch for that user |
| Auth.OnAuthEvent | src/contexts/AuthContext.tsx:71-91 | every event sets the session and its user. SIGNED_OUT clears the profile. A fetch is scheduled iff the event is SIGNED_IN with a user, for that user's id |
| Auth.RestoreSession | src/contexts/AuthContext.tsx:94-101 | sets session and user, fetches the profile only when there is a user, and always clears loading |
| Auth.SignUp | src/contexts/AuthContext.tsx:108-144 | nothing is sent iff the lowercased username is taken. Otherwise the request carries the lowercased username, and a failure is rethrown with its message. Loading ends false |
| Auth.SignIn | src/contexts/AuthContext.tsx:146-164 | a failure rethrows the same error message, success rethrows nothing, nothing else changes, and loading ends false |
| Auth.SignOut | src/contexts/AuthContext.tsx:166-177 | never rethrows, clears the profile exactly on success, and otherwise changes nothing but clearing loading: user, session and profileLoading are left as they were |
| Auth.RunKeepsUserMatchingSession | src/contexts/AuthContext.tsx:69-106 | whatever events and outcomes arrive, the user stays the session's user |
| Auth.RunKeepsLoadingClear | src/contexts/AuthContext.tsx:108-177 | once loading has cleared, no sequence of steps leaves it set |
| Auth.SignInShowsOwnProfile | src/contexts/AuthContext.tsx:71-91 | a successful sign-in, its SIGNED_IN event and the scheduled fetch show that user with their own profile, with both loading flags clear |
| Auth.SignOutThenEventClearsIdentity | src/contexts/AuthContext.tsx:166-177 | a successful sign-out clears only the profile; the SIGNED_OUT event that follows clears user and session |

## Findings

| source | as written | input that shows it | evidently intended | confidence | as-written member | corrected member |
|---|---|---|---|---|---|---|
| src/components/social/SocialActions.tsx:67-80 | `handleLike` updates counter and flag once `await likeCuration(...)` returns. But `likeCuration` and `unlikeCuration` (src/contexts/SocialContext.tsx:46-51, 66-71) catch their own errors, so the await always returns and the handler's own `catch` is never reached | a logged-in user whose likes insert fails: the counter goes up by 1 and the heart shows liked, while the likes table is unchanged | update only when the write was made | medium, not executed | SocialActions.FailedLikeStillCounted | SocialActions.LikeReportedKeepsSync |
| src/components/social/FollowButton.tsx:49-59 | `handleFollow` flips `following` and calls `onFollowChange` once `await followUser(...)` or `await unfollowUser(...)` returns. But both catch their own errors (src/contexts/SocialContext.tsx:159-162, 179-182), so the await always returns and the button's `catch` is never reached | a logged-in user whose follows insert fails: the button switches to "Unfollow" and reports the follow, while the follows table is unchanged | flip only when the write was made | medium, not executed | FollowButton.FailedFollowStillShown | FollowButton.FollowReportedKeepsSync |

`SocialActions.LikeReportedKeepsSync` is proved about the corrected handler
`SocialActions.LikeReported`, and `FollowButton.FollowReportedKeepsSync`
about `FollowButton.FollowReported`. `SocialActions.HandleLike` and
`FollowButton.HandleFollow` model each file on its own: their `reply` is
whether the awaited call threw.

## Left out

- **UI side effects and remote calls:**
  - Not modelled:
    - JSX rendering beyond the follow button's hidden/spinner/label choice;
    - toasts, navigation and console logging;
    - the busy flags `isLiking`, `isSaving`, `isSharing`, `uploadingImage`;
    - `form.reset()` and `onItemAdded()`.
  - These are UI effects with no stated behaviour.
  - The database, storage, clipboard and `window.open` calls are not modelled. Their outcomes are inputs, and the store is abstract.
- **Asynchrony in the auth provider:**
  - The `setTimeout` deferral and the race between `getSession` and auth events are not modelled. Events and outcomes are one sequential trace.
  - A scheduled profile fetch is its own step, `Auth.FetchUserProfile`, begun and finished at once.
  - So `profileLoading` is never observed as true between steps. During the initial restore, the fetch completes before `loading` clears.
- **The Supabase client's query semantics:**
  - Unmodelled: `.single()` and `.match()` semantics beyond "a row was found or not", and the error codes.
  - A username lookup that fails reads as "not taken" (`Auth.SignUp`), as the code ignores its error.
- **AddItemForm.SubmitKeepsPositionsDistinct:** holds for submits applied one after another. In the code the highest-position query and the insert are two separate awaits, and the submit button (src/components/curations/AddItemForm.tsx:257) is not disabled while a submit runs. So two overlapping submits can read the same highest position and insert the same position; that interleaving is not modelled.
- **Text.Lower:** models `toLowerCase` on ASCII letters only. Unicode case mappings, for example of 'İ' or the Kelvin sign, are not modelled.
- **Unicode and regular expressions:**
  - `\s` and `trim` use the exact ECMAScript whitespace set.
  - The regular expressions are matched on Unicode scalar values. Unpaired surrogates cannot occur in Dafny strings.
- **CurationList.MoveItem:** requires the id to be present. `CurationList.MoveById` covers an absent id. There, `undefined` in slot 0 is reported as `None` rather than modelled as a list element.
- **SocialActions.HandleSave and SocialActions.LoadStatus:** take the save call's and the save lookup's outcomes as inputs. `saveCuration`, `unsaveCuration` and `isSaved` are not defined by the social facade, so as shipped those calls throw.
- **SignupPage and AuthContext.signUp signatures:**
  - SignupPage calls `signUp` with four arguments, while AuthContext's `signUp` takes `(email, password, userData)`.
  - Each file is modelled on its own terms; the mismatch is not reconciled.
- **Social:** `getComments` is a read-only query with no local logic and is not modelled. Comment ids and timestamps are inputs.
- **Unrelated files:** the cache middleware, service worker, routing, build configuration, pages with static data, layout components, the comment list and the profile dialogs are not part of this model.

=== FILE: add_item_form.dfy ===
/**
 * The "add item" form of a curation: the checks and storage path of an image
 * upload, and the position a new item is inserted at.
 */
module AddItemForm {
  import opened Wrappers
  import Text

  // ---------------------------------------------------------------------
  // Image upload
  // ---------------------------------------------------------------------

  datatype ImageFile = ImageFile(mimeType: string, size: nat, name: string)

  /** Largest accepted upload: 5 MiB. */
  const MaxImageBytes: nat := 5 * 1024 * 1024

  const ImagePrefix: string := "image/"

  /** `name.split('.').pop()`: the text after the last '.', or the whole name
      when it has none. */
  function Extension(name: string): (ext: string)
    ensures '.' !in ext
    ensures |ext| <= |name| && name[|name| - |ext|..] == ext
    ensures |ext| < |name| ==> name[|name| - |ext| - 1] == '.'
  {
    if |name| == 0 || name[|name| - 1] == '.' then ""
    else
      var init := name[..|name| - 1];
      var ext := Extension(init) + [name[|name| - 1]];
      assert name == init + [name[|name| - 1]];
      ext
  }

  /** A file named `base.ext` has extension `ext`, whatever `base` holds. */
  lemma {:induction false} ExtensionAfterDot(base: string, ext: string)
    requires '.' !in ext
    ensures Extension(base + "." + ext) == ext
    decreases |ext|
  {
    var name := base + "." + ext;
    if |ext| > 0 {
      var init := ext[..|ext| - 1];
      assert name[..|name| - 1] == base + "." + init;
      ExtensionAfterDot(base, init);
      assert ext == init + [ext[|ext| - 1]];
    } else {
      assert name[|name| - 1] == '.';
    }
  }

  /** A name without a '.' is its own extension. */
  lemma {:induction false} ExtensionWithoutDot(name: string)
    requires '.' !in name
    ensures Extension(name) == name
    decreases |name|
  {
    if |name| > 0 {
      var init := name[..|name| - 1];
      ExtensionWithoutDot(init);
      assert name == init + [name[|name| - 1]];
    }
  }

  const PathPrefix: string := "items/"
  const NameInfix: string := "-item-"

  /** `items/${user.id}-item-${Math.random()}.${fileExt}`, with the random
      number's rendering passed in as `nonce`. */
  function UploadPath(userId: string, nonce: string, fileName: string): string
  {
    PathPrefix + userId + NameInfix + nonce + "." + Extension(fileName)
  }

  /** The stored object keeps the extension of a file named `base.ext`. */
  lemma UploadPathOfDottedName(userId: string, nonce: string, base: string, ext: string)
    requires '.' !in ext
    ensures UploadPath(userId, nonce, base + "." + ext) == "items/" + userId + "-item-" + nonce + "." + ext
  {
    ExtensionAfterDot(base, ext);
  }

  /** The outcome of the checks `handleImageUpload` makes before uploading. */
  datatype UploadCheck = NotLoggedIn | NotAnImage | TooLarge | UploadTo(path: string)

  /** No user, then the MIME type, then the size, in that order. */
  function CheckUpload(user: Option<string>, file: ImageFile, nonce: string): (r: UploadCheck)
    ensures r == NotLoggedIn <==> user.None?
    ensures r == NotAnImage <==> user.Some? && !Text.StartsWith(file.mimeType, ImagePrefix)
    ensures r == TooLarge <==>
      user.Some? && Text.StartsWith(file.mimeType, ImagePrefix) && file.size > MaxImageBytes
    ensures r.UploadTo? <==>
      user.Some? && Text.StartsWith(file.mimeType, ImagePrefix) && file.size <= MaxImageBytes
    ensures r.UploadTo? ==> r.path == UploadPath(user.value, nonce, file.name)
  {
    match user
    case None => NotLoggedIn
    case Some(id) =>
      if !Text.StartsWith(file.mimeType, ImagePrefix) then NotAnImage
      else if file.size > MaxImageBytes then TooLarge
      else
        UploadTo(UploadPath(id, nonce, file.name))
  }

  /** A non-image over the size limit reports the type error, and a file of
      exactly 5 MiB passes the size check. */
  lemma CheckOrder(id: string, nonce: string, name: string)
    ensures CheckUpload(Some(id), ImageFile("application/pdf", MaxImageBytes + 1, name), nonce) == NotAnImage
    ensures CheckUpload(Some(id), ImageFile("image/png", MaxImageBytes, name), nonce).UploadTo?
    ensures CheckUpload(Some(id), ImageFile("image/png", MaxImageBytes + 1, name), nonce) == TooLarge
  {
    assert "image/png"[..|ImagePrefix|] == ImagePrefix;
    assert "application/pdf"[0] != ImagePrefix[0];
  }

  /** What the storage upload did: the public URL it returned, or an error. */
  datatype UploadReply = Stored(publicUrl: string) | UploadError(message: string)

  /** The effect of `handleImageUpload` on the form: the path an upload was
      attempted at, if any, and the form's `image_url` afterwards. */
  datatype UploadEffect = UploadEffect(attempted: Option<string>, imageUrl: string)

  function HandleImageUpload(user: Option<string>, file: ImageFile, nonce: string,
                             imageUrl: string, reply: UploadReply): (e: UploadEffect)
    ensures !CheckUpload(user, file, nonce).UploadTo? ==> e == UploadEffect(None, imageUrl)
    ensures CheckUpload(user, file, nonce).UploadTo? ==>
      e.attempted == Some(CheckUpload(user, file, nonce).path)
    ensures e.imageUrl != imageUrl ==> e.attempted.Some? && reply == Stored(e.imageUrl)
    ensures CheckUpload(user, file, nonce).UploadTo? && reply.Stored? ==> e.imageUrl == reply.publicUrl
    ensures reply.UploadError? ==> e.imageUrl == imageUrl
  {
    match CheckUpload(user, file, nonce)
    case UploadTo(path) =>
      (match reply
       case Stored(url) => UploadEffect(Some(path), url)
       case UploadError(_) => UploadEffect(Some(path), imageUrl))
    case _ => UploadEffect(None, imageUrl)
  }

  // ---------------------------------------------------------------------
  // Inserting the item
  // ---------------------------------------------------------------------

  datatype ItemFields = ItemFields(title: string, description: string, externalUrl: string, imageUrl: string)

  /** A row of `curation_items`. */
  datatype ItemRow = ItemRow(
    curationId: string, title: string, description: string,
    externalUrl: string, imageUrl: string, position: int)

  /** Positions of the rows of one curation. */
  function Positions(table: seq<ItemRow>, curationId: string): (ps: seq<int>)
    ensures forall p :: p in ps <==> exists k :: 0 <= k < |table| && table[k].curationId == curationId && table[k].position == p
  {
    if |table| == 0 then []
    else
      var rest := Positions(table[1..], curationId);
      assert forall k :: 1 <= k < |table| ==> table[k] == table[1..][k - 1];
      if table[0].curationId == curationId then [table[0].position] + rest else rest
  }

  /** The top row of `order('position', descending).limit(1)`. */
  function Highest(ps: seq<int>): (m: int)
    requires |ps| > 0
    ensures m in ps
    ensures forall k :: 0 <= k < |ps| ==> ps[k] <= m
  {
    if |ps| == 1 then ps[0]
    else
      var rest := Highest(ps[1..]);
      assert forall k :: 1 <= k < |ps| ==> ps[k] == ps[1..][k - 1];
      if ps[0] >= rest then ps[0] else rest
  }

  /** One past the highest position, or 0 for a curation without items. */
  function NextPosition(ps: seq<int>): (p: int)
    ensures forall q :: q in ps ==> q < p
    ensures |ps| == 0 ==> p == 0
    ensures |ps| > 0 ==> p - 1 in ps
  {
    if |ps| > 0 then Highest(ps) + 1 else 0
  }

  datatype SubmitStatus = Skipped | Added(row: ItemRow) | SubmitError(message: string)

  const AddFailed: string := "Failed to add item"

  function ErrorText(message: string): string
  {
    if message == "" then AddFailed else message
  }

  /** `onSubmit`: without a user nothing happens; otherwise the position
      query runs, an error in it aborts, and the insert carries the curation,
      the form fields and the next position. */
  function Submit(table: seq<ItemRow>, user: Option<string>, curationId: string, fields: ItemFields,
                  query: Reply, insert: Reply): (r: (seq<ItemRow>, SubmitStatus))
    ensures user.None? ==> r == (table, Skipped)
    ensures user.Some? && query.Failed? ==> r == (table, SubmitError(ErrorText(query.message)))
    ensures user.Some? && query == Done && insert.Failed? ==> r == (table, SubmitError(ErrorText(insert.message)))
    ensures r.1.Added? <==> user.Some? && query == Done && insert == Done
    ensures r.1.Added? ==>
      && r.0 == table + [r.1.row]
      && r.1.row.curationId == curationId
      && r.1.row.title == fields.title && r.1.row.description == fields.description
      && r.1.row.externalUrl == fields.externalUrl && r.1.row.imageUrl == fields.imageUrl
      && (forall k :: 0 <= k < |table| && table[k].curationId == curationId ==> table[k].position < r.1.row.position)
      && r.1.row.position == NextPosition(Positions(table, curationId))
  {
    if user.None? then (table, Skipped)
    else if query.Failed? then (table, SubmitError(ErrorText(query.message)))
    else
      var ps := Positions(table, curationId);
      var position := NextPosition(ps);
      assert forall k :: 0 <= k < |table| && table[k].curationId == curationId ==> table[k].position in ps;
      var row := ItemRow(curationId, fields.title, fields.description, fields.externalUrl, fields.imageUrl, position);
      if insert.Failed? then (table, SubmitError(ErrorText(insert.message)))
      else (table + [row], Added(row))
  }

  predicate DistinctPositions(table: seq<ItemRow>, curationId: string)
  {
    forall i, j :: 0 <= i < j < |table| && table[i].curationId == curationId && table[j].curationId == curationId
      ==> table[i].position != table[j].position
  }

  /** Inserting through the form never gives two items of a curation the same
      position. */
  lemma SubmitKeepsPositionsDistinct(table: seq<ItemRow>, user: Option<string>, curationId: string,
                                     fields: ItemFields, query: Reply, insert: Reply, other: string)
    requires DistinctPositions(table, other)
    ensures DistinctPositions(Submit(table, user, curationId, fields, query, insert).0, other)
  {
    var r := Submit(table, user, curationId, fields, query, insert);
    if r.1.Added? {
      var t := r.0;
      forall i, j | 0 <= i < j < |t| && t[i].curationId == other && t[j].curationId == other
        ensures t[i].position != t[j].position
      {
        assert t[i] == table[i];
        if j < |table| {
          assert t[j] == table[j];
        }
      }
    }
  }
}

=== FILE: auth.dfy ===
/**
 * The authentication provider: who is signed in, their session and cached
 * profile, and two loading flags, driven by auth events from the identity
 * service and by the outcomes of its own operations. Events and operation
 * outcomes are applied one at a time, in the order they are delivered.
 */
module Auth {
  import opened Wrappers
  import Text

  type UserId = string

  datatype User = User(id: UserId, email: string)

  datatype Session = Session(accessToken: string, user: Option<User>)

  datatype Profile = Profile(
    id: UserId, username: string, fullName: Option<string>,
    avatarUrl: Option<string>, bio: Option<string>, website: Option<string>)

  datatype AuthState = AuthState(
    user: Option<User>, session: Option<Session>, profile: Option<Profile>,
    loading: bool, profileLoading: bool)

  /** No user, session or profile; `loading` true, `profileLoading` false. */
  function Initial(): (st: AuthState)
    ensures st.user.None? && st.session.None? && st.profile.None?
    ensures st.loading && !st.profileLoading
  {
    AuthState(None, None, None, true, false)
  }

  /** `session?.user ?? null`. */
  function UserOf(session: Option<Session>): Option<User>
  {
    if session.Some? then session.value.user else None
  }

  /** The user shown is the one the session carries. */
  predicate UserMatchesSession(st: AuthState)
  {
    st.user == UserOf(st.session)
  }

  // ---------------------------------------------------------------------
  // Profile loading
  // ---------------------------------------------------------------------

  /** The `profiles` table, keyed by user id. */
  type Profiles = map<UserId, Profile>

  predicate WellKeyed(profiles: Profiles)
  {
    forall id :: id in profiles ==> profiles[id].id == id
  }

  /** `fetchUserProfile(userId)`: the single-row lookup replaces the profile
      only when it returns a row; no row, or a failed call, keeps the old one.
      `profileLoading` is false when it ends. */
  function FetchUserProfile(st: AuthState, userId: UserId, profiles: Profiles, fails: bool): (r: AuthState)
    ensures !r.profileLoading
    ensures r.user == st.user && r.session == st.session && r.loading == st.loading
    ensures r.profile == (if !fails && userId in profiles then Some(profiles[userId]) else st.profile)
    ensures WellKeyed(profiles) && r.profile != st.profile ==> r.profile.value.id == userId
  {
    var begun := st.(profileLoading := true);
    var fetched := if !fails && userId in profiles then begun.(profile := Some(profiles[userId])) else begun;
    fetched.(profileLoading := false)
  }

  /** `refreshProfile`: refetch for the current user, or do nothing. */
  function RefreshProfile(st: AuthState, profiles: Profiles, fails: bool): (r: AuthState)
    ensures st.user.None? ==> r == st
    ensures st.user.Some? ==> r == FetchUserProfile(st, st.user.value.id, profiles, fails)
  {
    if st.user.Some? then FetchUserProfile(st, st.user.value.id, profiles, fails) else st
  }

  // ---------------------------------------------------------------------
  // Auth events and the initial restore
  // ---------------------------------------------------------------------

  datatype EventKind = InitialSession | SignedIn | SignedOut | TokenRefreshed | UserUpdated | PasswordRecovery

  /** The listener: every event sets the session and its user; SIGNED_OUT
      clears the profile; SIGNED_IN with a user schedules a profile fetch for
      that user, returned as the second component. */
  function OnAuthEvent(st: AuthState, kind: EventKind, session: Option<Session>): (r: (AuthState, Option<UserId>))
    ensures r.0.session == session && r.0.user == UserOf(session)
    ensures UserMatchesSession(r.0)
    ensures r.0.profile == (if kind == SignedOut then None else st.profile)
    ensures r.1.Some? <==> kind == SignedIn && UserOf(session).Some?
    ensures r.1.Some? ==> r.1.value == UserOf(session).value.id
    ensures r.0.loading == st.loading && r.0.profileLoading == st.profileLoading
  {
    var next := st.(session := session, user := UserOf(session));
    if kind == SignedIn then
      (next, if UserOf(session).Some? then Some(UserOf(session).value.id) else None)
    else if kind == SignedOut then (next.(profile := None), None)
    else (next, None)
  }

  /** The initial `getSession`: set session and user, fetch the profile only
      if there is a user, and clear `loading` in every case. */
  function RestoreSession(st: AuthState, session: Option<Session>, profiles: Profiles, fails: bool): (r: AuthState)
    ensures r.session == session && r.user == UserOf(session)
    ensures !r.loading
    ensures UserOf(session).None? ==> r.profile == st.profile && r.profileLoading == st.profileLoading
    ensures UserOf(session).Some? ==>
      r.profile == (if !fails && UserOf(session).value.id in profiles
                    then Some(profiles[UserOf(session).value.id]) else st.profile)
  {
    var next := st.(session := session, user := UserOf(session));
    var fetched := if UserOf(session).Some? then FetchUserProfile(next, UserOf(session).value.id, profiles, fails) else next;
    fetched.(loading := false)
  }

  // ---------------------------------------------------------------------
  // Sign-up, sign-in, sign-out
  // ---------------------------------------------------------------------

  /** What `signUp` sends to the identity service. */
  datatype SignUpRequest = SignUpRequest(email: string, password: string, fullName: string, username: string)

  /** The effect of an operation: the new state, the request sent (if any),
      and the error rethrown to the caller (if any). */
  datatype OpResult = OpResult(state: AuthState, request: Option<SignUpRequest>, rethrown: Option<string>)

  /** `signUp`: if the lowercased username is already taken, return quietly
      without creating an account; otherwise send the request with the
      lowercased username as metadata and rethrow a failure. `loading` ends
      false. A failed lookup reads as "not taken". */
  function SignUp(st: AuthState, email: string, password: string, fullName: string, username: string,
                  takenUsernames: set<string>, lookupFails: bool, reply: Reply): (r: OpResult)
    ensures !r.state.loading
    ensures r.state == st.(loading := false)
    ensures r.request.None? <==> !lookupFails && Text.Lower(username) in takenUsernames
    ensures r.request.Some? ==>
      r.request.value == SignUpRequest(email, password, fullName, Text.Lower(username))
    ensures r.rethrown.Some? <==> r.request.Some? && reply.Failed?
    ensures r.rethrown.Some? ==> r.rethrown.value == reply.message
  {
    var done := st.(loading := false);
    var lowered := Text.Lower(username);
    if !lookupFails && lowered in takenUsernames then OpResult(done, None, None)
    else
      var request := SignUpRequest(email, password, fullName, lowered);
      match reply
      case Done => OpResult(done, Some(request), None)
      case Failed(message) => OpResult(done, Some(request), Some(message))
  }

  /** `signIn`: a failure is rethrown; the user arrives later through the
      SIGNED_IN event. `loading` ends false. */
  function SignIn(st: AuthState, reply: Reply): (r: OpResult)
    ensures r.state == st.(loading := false)
    ensures r.request.None?
    ensures r.rethrown.Some? <==> reply.Failed?
    ensures r.rethrown.Some? ==> r.rethrown.value == reply.message
  {
    OpResult(st.(loading := false), None, if reply.Failed? then Some(reply.message) else None)
  }

  /** `signOut`: a success clears the profile; a failure is reported but not
      rethrown. `loading` ends false. User and session are left to the
      SIGNED_OUT event. */
  function SignOut(st: AuthState, reply: Reply): (r: OpResult)
    ensures r.rethrown.None? && r.request.None?
    ensures !r.state.loading
    ensures r.state.user == st.user && r.state.session == st.session
    ensures r.state.profile == (if reply == Done then None else st.profile)
    ensures r.state == st.(loading := false, profile := if reply == Done then None else st.profile)
  {
    OpResult(st.(loading := false, profile := if reply == Done then None else st.profile), None, None)
  }

  // ---------------------------------------------------------------------
  // Traces
  // ---------------------------------------------------------------------

  /** Everything that can happen to the provider, in delivery order. A
      scheduled profile fetch completes as its own step. */
  datatype Step =
    | Event(kind: EventKind, session: Option<Session>)
    | Restore(restored: Option<Session>, restoreFails: bool)
    | FetchDone(userId: UserId, fetchFails: bool)
    | Refresh(refreshFails: bool)
    | SignUpStep(email: string, password: string, fullName: string, username: string,
                 takenUsernames: set<string>, lookupFails: bool, signUpReply: Reply)
    | SignInStep(signInReply: Reply)
    | SignOutStep(signOutReply: Reply)

  function Apply(st: AuthState, profiles: Profiles, s: Step): AuthState
  {
    match s
    case Event(kind, session) => OnAuthEvent(st, kind, session).0
    case Restore(session, fails) => RestoreSession(st, session, profiles, fails)
    case FetchDone(id, fails) => FetchUserProfile(st, id, profiles, fails)
    case Refresh(fails) => RefreshProfile(st, profiles, fails)
    case SignUpStep(e, p, n, u, taken, lf, reply) => SignUp(st, e, p, n, u, taken, lf, reply).state
    case SignInStep(reply) => SignIn(st, reply).state
    case SignOutStep(reply) => SignOut(st, reply).state
  }

  function Run(st: AuthState, profiles: Profiles, steps: seq<Step>): AuthState
    decreases |steps|
  {
    if |steps| == 0 then st else Run(Apply(st, profiles, steps[0]), profiles, steps[1..])
  }

  /** The user always is the session's user, from the initial state on,
      whatever is delivered. */
  lemma {:induction false} RunKeepsUserMatchingSession(st: AuthState, profiles: Profiles, steps: seq<Step>)
    requires UserMatchesSession(st)
    ensures UserMatchesSession(Run(st, profiles, steps))
    decreases |steps|
  {
    if |steps| > 0 {
      var next := Apply(st, profiles, steps[0]);
      assert UserMatchesSession(next);
      RunKeepsUserMatchingSession(next, profiles, steps[1..]);
    }
  }

  /** Once `loading` has cleared it stays clear: every operation that sets it
      clears it again before it returns. */
  lemma {:induction false} RunKeepsLoadingClear(st: AuthState, profiles: Profiles, steps: seq<Step>)
    requires !st.loading
    ensures !Run(st, profiles, steps).loading
    decreases |steps|
  {
    if |steps| > 0 {
      var next := Apply(st, profiles, steps[0]);
      assert !next.loading;
      RunKeepsLoadingClear(next, profiles, steps[1..]);
    }
  }

  /** With a well-keyed profiles table, a cached profile always belongs to a
      user a fetch was made for; in particular a successful sign-in followed
      by its event and fetch shows that user and their own profile. */
  lemma SignInShowsOwnProfile(st: AuthState, profiles: Profiles, token: string, u: User)
    requires WellKeyed(profiles) && u.id in profiles
    ensures
      var session := Some(Session(token, Some(u)));
      var signedIn := SignIn(st, Done).state;
      var (afterEvent, fetch) := OnAuthEvent(signedIn, SignedIn, session);
      && fetch == Some(u.id)
      && var done := FetchUserProfile(afterEvent, fetch.value, profiles, false);
         done.user == Some(u) && done.profile.Some? && done.profile.value.id == u.id
         && !done.loading && !done.profileLoading
  {
  }

  /** `signOut` alone clears only the profile; user and session are cleared
      by the SIGNED_OUT event that follows. */
  lemma SignOutThenEventClearsIdentity(st: AuthState)
    ensures
      var out := SignOut(st, Done).state;
      out.user == st.user && out.session == st.session && out.profile.None?
      && var (after, fetch) := OnAuthEvent(out, SignedOut, None);
         after.user.None? && after.session.None? && after.profile.None? && fetch.None?
  {
  }
}

=== FILE: cache_config.dfy ===
/**
 * The cache configuration table, the `Cache-Control` header built from it,
 * and the 32-bit string hash used to version static assets.
 */
module CacheConfig {
  import opened Wrappers
  import Radix
  import Text

  datatype Environment = Development | Production

  datatype AssetType = StaticAssets | ApiResponses

  datatype CacheSettings = CacheSettings(maxAge: nat, staleWhileRevalidate: nat)

  /** `cacheConfig[environment][type]`: development caches nothing, and in
      production the stale-serving window is never longer than the max-age. */
  function Settings(env: Environment, kind: AssetType): (c: CacheSettings)
    ensures env == Development <==> c.maxAge == 0
    ensures env == Development ==> c.staleWhileRevalidate == 0
    ensures 0 < c.staleWhileRevalidate < c.maxAge || c == CacheSettings(0, 0)
  {
    match env
    case Development => CacheSettings(0, 0)
    case Production =>
      match kind
      case StaticAssets => CacheSettings(31536000, 86400)
      case ApiResponses => CacheSettings(300, 60)
  }

  /** The environment parameter defaults to production: only an explicit
      development argument selects development. */
  function ResolveEnvironment(env: Option<Environment>): (e: Environment)
    ensures e == Development <==> env == Some(Development)
  {
    match env
    case Some(e) => e
    case None => Production
  }

  const MaxAgePrefix: string := "public, max-age="
  const StalePrefix: string := ", stale-while-revalidate="

  function Decimal(n: nat): string
  {
    Radix.Digits(n, 10)
  }

  /** `generateCacheControl(type, environment)`: the header reads back as the
      selected settings, and it is the only header that does. */
  function GenerateCacheControl(kind: AssetType, env: Option<Environment>): (header: string)
    ensures ParseCacheControl(header) == Some(Settings(ResolveEnvironment(env), kind))
    ensures forall h :: ParseCacheControl(h) == ParseCacheControl(header) ==> h == header
  {
    var c := Settings(ResolveEnvironment(env), kind);
    var header := MaxAgePrefix + Decimal(c.maxAge) + StalePrefix + Decimal(c.staleWhileRevalidate);
    HeaderRoundTrip(c.maxAge, c.staleWhileRevalidate);
    assert forall h | ParseCacheControl(h) == Some(c) :: h == header by {
      forall h | ParseCacheControl(h) == Some(c)
        ensures h == header
      {
        ParseCacheControlCanonical(h);
      }
    }
    header
  }

  /** Length of the run of decimal digits at the start of `s`. */
  function DigitRun(s: string): (n: nat)
    ensures n <= |s|
    ensures Radix.AllDigits(s[..n], 10)
    ensures n < |s| ==> !Radix.IsDigit(s[n], 10)
  {
    if |s| == 0 || !Radix.IsDigit(s[0], 10) then 0
    else
      var n := 1 + DigitRun(s[1..]);
      assert forall k :: 1 <= k < n ==> s[..n][k] == s[1..][..n - 1][k - 1];
      n
  }

  /** Reads a header of the shape `generateCacheControl` writes back into the
      two numbers it carries, each written as JavaScript writes a number (no
      leading zeros); anything else reads as `None`. */
  function ParseCacheControl(header: string): Option<CacheSettings>
  {
    if Text.StartsWith(header, MaxAgePrefix) then ParseNumbers(header[|MaxAgePrefix|..]) else None
  }

  /** The part after `public, max-age=`: a number, the stale prefix, a number. */
  function ParseNumbers(rest: string): Option<CacheSettings>
  {
    var n := DigitRun(rest);
    var after := rest[n..];
    if !Radix.Canonical(rest[..n], 10) || !Text.StartsWith(after, StalePrefix) then None
    else
      var tail := after[|StalePrefix|..];
      if !Radix.Canonical(tail, 10) then None
      else Some(CacheSettings(Radix.Value(rest[..n], 10), Radix.Value(tail, 10)))
  }

  /** Every header the parser accepts is the one written for the numbers it
      reads, so the parser pins the header text and not only its values. */
  lemma ParseCacheControlCanonical(header: string)
    requires ParseCacheControl(header).Some?
    ensures
      var c := ParseCacheControl(header).value;
      header == MaxAgePrefix + Decimal(c.maxAge) + StalePrefix + Decimal(c.staleWhileRevalidate)
  {
    var rest := header[|MaxAgePrefix|..];
    AfterMaxAgePrefix(header);
    NumbersCanonical(rest);
    var c := ParseNumbers(rest).value;
    Regroup(MaxAgePrefix, Decimal(c.maxAge), StalePrefix, Decimal(c.staleWhileRevalidate));
  }

  /** Concatenation regrouped, stated over plain variables so that it is not
      re-proved character by character for the literal prefixes. */
  lemma Regroup(a: string, b: string, c: string, d: string)
    ensures a + (b + c + d) == a + b + c + d
  {
  }

  /** An accepted header is the max-age prefix followed by what
      `ParseNumbers` accepts. */
  lemma AfterMaxAgePrefix(header: string)
    requires ParseCacheControl(header).Some?
    ensures |MaxAgePrefix| <= |header| && header == MaxAgePrefix + header[|MaxAgePrefix|..]
    ensures ParseCacheControl(header) == ParseNumbers(header[|MaxAgePrefix|..])
  {
    Text.StartsWithSplit(header, MaxAgePrefix);
  }

  lemma NumbersCanonical(rest: string)
    requires ParseNumbers(rest).Some?
    ensures
      var c := ParseNumbers(rest).value;
      rest == Decimal(c.maxAge) + StalePrefix + Decimal(c.staleWhileRevalidate)
  {
    var n := DigitRun(rest);
    var digits, after := rest[..n], rest[n..];
    var tail := after[|StalePrefix|..];
    var c := ParseNumbers(rest).value;
    assert c == CacheSettings(Radix.Value(digits, 10), Radix.Value(tail, 10));
    Radix.DigitsOfValue(digits, 10);
    Radix.DigitsOfValue(tail, 10);
    Text.StartsWithSplit(after, StalePrefix);
    assert rest == digits + after;
  }

  lemma HeaderRoundTrip(maxAge: nat, stale: nat)
    ensures ParseCacheControl(MaxAgePrefix + Decimal(maxAge) + StalePrefix + Decimal(stale))
         == Some(CacheSettings(maxAge, stale))
  {
    var m, s := Decimal(maxAge), Decimal(stale);
    var after := StalePrefix + s;
    var rest := m + after;
    Regroup(MaxAgePrefix, m, StalePrefix, s);
    assert rest == m + StalePrefix + s;
    Text.StartsWithConcat(MaxAgePrefix, rest);
    assert DigitRun(rest) == |m| by {
      DigitRunStops(m, after);
    }
    assert rest[..|m|] == m && rest[|m|..] == after;
    Text.StartsWithConcat(StalePrefix, s);
    Radix.ValueOfDigits(maxAge, 10);
    Radix.ValueOfDigits(stale, 10);
  }

  /** The digit run of `d + t` is `d` when `t` starts with a non-digit. */
  lemma {:induction false} DigitRunStops(d: string, t: string)
    requires Radix.AllDigits(d, 10)
    requires |t| > 0 && !Radix.IsDigit(t[0], 10)
    ensures DigitRun(d + t) == |d|
    decreases |d|
  {
    if |d| > 0 {
      assert (d + t)[1..] == d[1..] + t;
      DigitRunStops(d[1..], t);
    } else {
      assert d + t == t;
    }
  }

  /** In development nothing is cached, whatever the asset type. */
  lemma DevelopmentCachesNothing(kind: AssetType)
    ensures ParseCacheControl(GenerateCacheControl(kind, Some(Development))) == Some(CacheSettings(0, 0))
  {
  }

  /** The production defaults: a year (with a day of stale serving) for static
      assets, five minutes (with one minute) for API responses; omitting the
      environment means production. */
  lemma ProductionSettings()
    ensures ParseCacheControl(GenerateCacheControl(StaticAssets, None)) == Some(CacheSettings(31536000, 86400))
    ensures ParseCacheControl(GenerateCacheControl(ApiResponses, None)) == Some(CacheSettings(300, 60))
    ensures forall kind :: GenerateCacheControl(kind, None) == GenerateCacheControl(kind, Some(Production))
  {
  }

  // ---------------------------------------------------------------------
  // Version hash
  // ---------------------------------------------------------------------

  const Two31: int := 0x8000_0000
  const Two32: int := 0x1_0000_0000

  /** ECMAScript ToInt32: wrap an integer into [-2^31, 2^31). */
  function ToInt32(x: int): (r: int)
    ensures -Two31 <= r < Two31
    ensures (x - r) % Two32 == 0
  {
    (x + Two31) % Two32 - Two31
  }

  predicate IsInt32(x: int)
  {
    -Two31 <= x < Two31
  }

  /** Two integers congruent modulo 2^32 wrap to the same 32-bit value. */
  lemma ToInt32Congruent(a: int, b: int)
    requires (a - b) % Two32 == 0
    ensures ToInt32(a) == ToInt32(b)
  {
    var k := (a - b) / Two32;
    assert a - b == k * Two32;
    ShiftMod(b + Two31, k);
    assert a + Two31 == (b + Two31) + k * Two32;
  }

  lemma ShiftMod(x: int, k: int)
    ensures (x + k * Two32) % Two32 == x % Two32
  {
    var q, r := x / Two32, x % Two32;
    assert x + k * Two32 == (q + k) * Two32 + r;
  }

  /** ToInt32 leaves 32-bit values alone. */
  lemma ToInt32OfInt32(x: int)
    requires IsInt32(x)
    ensures ToInt32(x) == x
  {
    ToInt32Congruent(x, x);
    assert (x + Two31) % Two32 == x + Two31;
  }

  /** `hash << 5`: ToInt32 of the operand, shifted, wrapped again. */
  function ShiftLeft5(h: int): int
  {
    ToInt32(ToInt32(h) * 32)
  }

  /** One loop iteration as written: `hash = ((hash << 5) - hash) + char`
      computed in doubles (exact at these magnitudes), then `hash & hash`,
      which is ToInt32. */
  function HashStep(h: int, unit: int): int
  {
    ToInt32(ShiftLeft5(h) - h + unit)
  }

  /** The step is `toInt32(31 * hash + unit)`. */
  lemma HashStepIsTimes31(h: int, unit: int)
    requires IsInt32(h)
    ensures HashStep(h, unit) == ToInt32(31 * h + unit)
  {
    ToInt32OfInt32(h);
    var s := ToInt32(h * 32);
    assert (h * 32 - s) % Two32 == 0;
    var k := (h * 32 - s) / Two32;
    assert (s - h + unit) - (31 * h + unit) == -(h * 32 - s);
    assert ((s - h + unit) - (31 * h + unit)) % Two32 == 0 by {
      assert h * 32 - s == k * Two32;
      assert (s - h + unit) - (31 * h + unit) == (-k) * Two32;
    }
    ToInt32Congruent(s - h + unit, 31 * h + unit);
  }

  /** The hash of a sequence of code units: the loop of
      `generateVersionHash`, folded from the left starting at 0. */
  function HashUnits(units: seq<int>): (h: int)
    ensures IsInt32(h)
  {
    if |units| == 0 then 0
    else HashStep(HashUnits(units[..|units| - 1]), units[|units| - 1])
  }

  /** Appending one code unit multiplies by 31, adds, and wraps. */
  lemma HashAppend(units: seq<int>, unit: int)
    ensures HashUnits(units + [unit]) == ToInt32(31 * HashUnits(units) + unit)
  {
    assert (units + [unit])[..|units|] == units;
    HashStepIsTimes31(HashUnits(units), unit);
  }

  /** `hash.toString(36)`: an optional '-', then canonical base-36 digits. */
  function Base36(h: int): (s: string)
    ensures |s| > 0
    ensures h < 0 <==> s[0] == '-'
    ensures h < 0 ==> Radix.Canonical(s[1..], 36) && s[1] != '0'
    ensures h >= 0 ==> Radix.Canonical(s, 36)
  {
    if h < 0 then "-" + Radix.Digits(-h, 36) else Radix.Digits(h, 36)
  }

  /** Reads a base-36 rendering back. */
  function ParseBase36(s: string): Option<int>
  {
    if |s| > 0 && s[0] == '-' then
      if Radix.Canonical(s[1..], 36) && s[1..] != "0" then var v: int := Radix.Value(s[1..], 36); Some(-v) else None
    else if Radix.Canonical(s, 36) then Some(Radix.Value(s, 36))
    else None
  }

  lemma {:induction false} Base36RoundTrip(h: int)
    ensures ParseBase36(Base36(h)) == Some(h)
  {
    if h < 0 {
      assert ("-" + Radix.Digits(-h, 36))[1..] == Radix.Digits(-h, 36);
      Radix.ValueOfDigits(-h, 36);
    } else {
      Radix.ValueOfDigits(h, 36);
    }
  }

  /** Every string `ParseBase36` accepts is the rendering of what it reads, so
      the rendering is injective and has exactly the stated shape. */
  lemma {:induction false} ParseBase36Canonical(s: string)
    requires ParseBase36(s).Some?
    ensures Base36(ParseBase36(s).value) == s
  {
    if |s| > 0 && s[0] == '-' {
      Radix.DigitsOfValue(s[1..], 36);
      assert "-" + s[1..] == s;
    } else {
      Radix.DigitsOfValue(s, 36);
    }
  }

  /** `generateVersionHash(content)`: the base-36 rendering of the 32-bit
      hash of the content's UTF-16 code units. */
  function GenerateVersionHash(content: string): (s: string)
    ensures ParseBase36(s) == Some(HashUnits(Text.Utf16(content)))
  {
    Base36RoundTrip(HashUnits(Text.Utf16(content)));
    Base36(HashUnits(Text.Utf16(content)))
  }

  /** The version hash of the empty string is "0". */
  lemma EmptyContentHash()
    ensures GenerateVersionHash("") == "0"
  {
  }

  /** The loop of `generateVersionHash` as written, over the code units. */
  method ComputeVersionHash(content: string) returns (s: string)
    ensures ParseBase36(s) == Some(HashUnits(Text.Utf16(content)))
    ensures s == GenerateVersionHash(content)
  {
    var units := Text.Utf16(content);
    var hash := 0;
    var i := 0;
    while i < |units|
      invariant 0 <= i <= |units|
      invariant hash == HashUnits(units[..i])
    {
      assert units[..i + 1][..i] == units[..i];
      hash := HashStep(hash, units[i]);
      i := i + 1;
    }
    assert units[..|units|] == units;
    s := Base36(hash);
    Base36RoundTrip(hash);
  }
}

=== FILE: curation_list.dfy ===
/**
 * The ranked-item editor of the "create curation" page: a list of item
 * records that the user can extend at the end, delete from, and reorder one
 * step at a time.
 */
module CurationList {
  import opened Wrappers

  datatype Item = Item(id: int, title: string, description: string)

  datatype Direction = Up | Down

  function Ids(items: seq<Item>): (ids: seq<int>)
    ensures |ids| == |items|
    ensures forall k :: 0 <= k < |items| ==> ids[k] == items[k].id
  {
    seq(|items|, k requires 0 <= k < |items| => items[k].id)
  }

  predicate HasId(items: seq<Item>, id: int)
  {
    id in Ids(items)
  }

  predicate DistinctIds(items: seq<Item>)
  {
    forall i, j :: 0 <= i < j < |items| ==> items[i].id != items[j].id
  }

  /** The page opens with three blank items numbered 1, 2 and 3. */
  function InitialItems(): seq<Item>
  {
    [Item(1, "", ""), Item(2, "", ""), Item(3, "", "")]
  }

  lemma InitialItemsShape()
    ensures |InitialItems()| == 3
    ensures forall k :: 0 <= k < 3 ==> InitialItems()[k] == Item(k + 1, "", "")
    ensures DistinctIds(InitialItems())
  {
  }

  /** `Math.max(...items.map(i => i.id))` on a non-empty list. */
  function MaxId(items: seq<Item>): (m: int)
    requires |items| > 0
    ensures HasId(items, m)
    ensures forall k :: 0 <= k < |items| ==> items[k].id <= m
  {
    if |items| == 1 then items[0].id
    else
      var rest := MaxId(items[1..]);
      assert forall k :: 1 <= k < |items| ==> items[k] == items[1..][k - 1];
      if items[0].id >= rest then items[0].id else rest
  }

  /** The id `addItem` hands out: one past the largest id, or 1 for an empty
      list. */
  function NextId(items: seq<Item>): int
  {
    if |items| > 0 then MaxId(items) + 1 else 1
  }

  /** `addItem`: append one blank item whose id is fresh. */
  function AddItem(items: seq<Item>): (r: seq<Item>)
    ensures |r| == |items| + 1
    ensures r[..|items|] == items
    ensures r[|items|].title == "" && r[|items|].description == ""
    ensures forall k :: 0 <= k < |items| ==> items[k].id < r[|items|].id
    ensures |items| == 0 ==> r[0].id == 1
    ensures |items| > 0 ==> HasId(items, r[|items|].id - 1)
  {
    items + [Item(NextId(items), "", "")]
  }

  /** `addItem` keeps ids pairwise distinct. */
  lemma AddItemKeepsDistinct(items: seq<Item>)
    requires DistinctIds(items)
    ensures DistinctIds(AddItem(items))
  {
    var r := AddItem(items);
    forall i, j | 0 <= i < j < |r|
      ensures r[i].id != r[j].id
    {
      if j == |items| {
        assert r[i] == items[i];
      } else {
        assert r[i] == items[i] && r[j] == items[j];
      }
    }
  }

  /** `removeItem(id)`: `items.filter(item => item.id !== id)`. */
  function RemoveItem(items: seq<Item>, id: int): (r: seq<Item>)
    ensures |r| <= |items|
    ensures forall k :: 0 <= k < |r| ==> r[k].id != id
    ensures forall it :: it in r <==> it in items && it.id != id
    ensures !HasId(items, id) ==> r == items
  {
    if |items| == 0 then []
    else
      var rest := RemoveItem(items[1..], id);
      assert items == [items[0]] + items[1..];
      assert forall it :: it in items <==> it == items[0] || it in items[1..];
      HasIdCons(items, id);
      if items[0].id == id then rest else [items[0]] + rest
  }

  /** An id occurs in a non-empty list iff it is the head's or occurs in the
      tail. */
  lemma HasIdCons(items: seq<Item>, id: int)
    requires |items| > 0
    ensures HasId(items, id) <==> items[0].id == id || HasId(items[1..], id)
  {
    if HasId(items[1..], id) {
      var k :| 0 <= k < |items[1..]| && Ids(items[1..])[k] == id;
      assert Ids(items)[k + 1] == id;
    }
    if HasId(items, id) && items[0].id != id {
      var k :| 0 <= k < |items| && Ids(items)[k] == id;
      assert Ids(items[1..])[k - 1] == id;
    }
  }

  /** `a` is obtained from `b` by dropping some elements. */
  predicate Subsequence<T(==)>(a: seq<T>, b: seq<T>)
    decreases |b|
  {
    if |a| == 0 then true
    else if |b| == 0 then false
    else if a[0] == b[0] then Subsequence(a[1..], b[1..])
    else Subsequence(a, b[1..])
  }

  /** `removeItem` keeps the surviving items in their original relative
      order. */
  lemma {:induction false} RemoveItemKeepsOrder(items: seq<Item>, id: int)
    ensures Subsequence(RemoveItem(items, id), items)
  {
    if |items| > 0 {
      RemoveItemKeepsOrder(items[1..], id);
      var rest := RemoveItem(items[1..], id);
      if items[0].id != id {
        assert ([items[0]] + rest)[1..] == rest;
      }
    }
  }

  /** `removeItem` removes exactly the items carrying `id`: the length drops by
      their number. */
  lemma {:induction false} RemoveItemCount(items: seq<Item>, id: int)
    ensures |RemoveItem(items, id)| == |items| - CountId(items, id)
  {
    if |items| > 0 {
      RemoveItemCount(items[1..], id);
    }
  }

  function CountId(items: seq<Item>, id: int): nat
  {
    if |items| == 0 then 0
    else (if items[0].id == id then 1 else 0) + CountId(items[1..], id)
  }

  /** `removeItem` keeps ids pairwise distinct. */
  lemma {:induction false} RemoveItemKeepsDistinct(items: seq<Item>, id: int)
    requires DistinctIds(items)
    ensures DistinctIds(RemoveItem(items, id))
  {
    if |items| > 0 {
      var tail := items[1..];
      assert DistinctIds(tail) by {
        forall i, j | 0 <= i < j < |tail|
          ensures tail[i].id != tail[j].id
        {
          assert tail[i] == items[i + 1] && tail[j] == items[j + 1];
        }
      }
      RemoveItemKeepsDistinct(tail, id);
      var rest := RemoveItem(tail, id);
      if items[0].id != id {
        assert forall it :: it in tail ==> it.id != items[0].id by {
          forall it | it in tail
            ensures it.id != items[0].id
          {
            var m :| 0 <= m < |tail| && tail[m] == it;
            assert items[m + 1] == it;
          }
        }
        PrependDistinct(items[0], rest);
      }
    }
  }

  lemma PrependDistinct(head: Item, rest: seq<Item>)
    requires DistinctIds(rest)
    requires forall it :: it in rest ==> it.id != head.id
    ensures DistinctIds([head] + rest)
  {
    var r := [head] + rest;
    forall i, j | 0 <= i < j < |r|
      ensures r[i].id != r[j].id
    {
      assert r[j] == rest[j - 1];
      if i > 0 {
        assert r[i] == rest[i - 1];
      }
    }
  }

  /** `items.findIndex(item => item.id === id)` when the id is present. */
  function IndexOf(items: seq<Item>, id: int): (i: nat)
    requires HasId(items, id)
    ensures i < |items| && items[i].id == id
    ensures forall k :: 0 <= k < i ==> items[k].id != id
  {
    if items[0].id == id then 0
    else
      assert HasId(items[1..], id) by {
        var k :| 0 <= k < |items| && items[k].id == id;
        assert items[1..][k - 1].id == id;
      }
      1 + IndexOf(items[1..], id)
  }

  /** The move is refused: 'up' on the first item or 'down' on the last. */
  predicate AtBoundary(items: seq<Item>, id: int, dir: Direction)
    requires HasId(items, id)
  {
    (dir == Up && IndexOf(items, id) == 0) || (dir == Down && IndexOf(items, id) == |items| - 1)
  }

  /** The index the item is swapped with when the move is not refused. */
  function Target(items: seq<Item>, id: int, dir: Direction): (t: nat)
    requires HasId(items, id) && !AtBoundary(items, id, dir)
    ensures t < |items|
  {
    if dir == Up then IndexOf(items, id) - 1 else IndexOf(items, id) + 1
  }

  /** `moveItem(id, dir)`: swap the item with its upper or lower neighbour,
      unless it already sits at that end of the list. */
  function MoveItem(items: seq<Item>, id: int, dir: Direction): (r: seq<Item>)
    requires HasId(items, id)
    ensures |r| == |items|
    ensures multiset(r) == multiset(items)
    ensures AtBoundary(items, id, dir) ==> r == items
    ensures !AtBoundary(items, id, dir) ==>
      var i, t := IndexOf(items, id), Target(items, id, dir);
      && r[t] == items[i] && r[i] == items[t]
      && forall k :: 0 <= k < |items| && k != i && k != t ==> r[k] == items[k]
  {
    if AtBoundary(items, id, dir) then items
    else
      var i, t := IndexOf(items, id), Target(items, id, dir);
      var r := items[i := items[t]][t := items[i]];
      SwapPermutes(items, i, t);
      r
  }

  /** `moveItem` for any id. When `findIndex` gives -1, 'up' only writes to
      the array's `-1` and `-2` properties, so the items are unchanged; 'down'
      on a non-empty list swaps slot 0 with the `-1` property and leaves slot 0
      undefined, which reads here as `None`. */
  function MoveById(items: seq<Item>, id: int, dir: Direction): (r: Option<seq<Item>>)
    ensures HasId(items, id) ==> r == Some(MoveItem(items, id, dir))
    ensures r.None? <==> !HasId(items, id) && dir == Down && |items| > 0
    ensures !HasId(items, id) && r.Some? ==> r.value == items
  {
    if HasId(items, id) then Some(MoveItem(items, id, dir))
    else if dir == Down && |items| > 0 then None
    else Some(items)
  }

  lemma SwapPermutes<T>(s: seq<T>, i: nat, t: nat)
    requires i < |s| && t < |s|
    ensures multiset(s[i := s[t]][t := s[i]]) == multiset(s)
  {
    var u := s[i := s[t]];
    assert multiset(u) == multiset(s) - multiset{s[i]} + multiset{s[t]};
    assert multiset(u[t := s[i]]) == multiset(u) - multiset{u[t]} + multiset{s[i]};
  }

  /** `moveItem` keeps ids pairwise distinct. */
  lemma MoveItemKeepsDistinct(items: seq<Item>, id: int, dir: Direction)
    requires HasId(items, id) && DistinctIds(items)
    ensures DistinctIds(MoveItem(items, id, dir))
  {
    var r := MoveItem(items, id, dir);
    if !AtBoundary(items, id, dir) {
      var i, t := IndexOf(items, id), Target(items, id, dir);
      forall a, b | 0 <= a < b < |r|
        ensures r[a].id != r[b].id
      {
        var a' := if a == i then t else if a == t then i else a;
        var b' := if b == i then t else if b == t then i else b;
        assert r[a] == items[a'] && r[b] == items[b'];
      }
    }
  }

  /** Moving an item up and then down again restores the list, unless the
      first move was refused. */
  lemma MoveUpThenDown(items: seq<Item>, id: int)
    requires HasId(items, id) && !AtBoundary(items, id, Up)
    ensures HasId(MoveItem(items, id, Up), id)
    ensures MoveItem(MoveItem(items, id, Up), id, Down) == items
  {
    var i := IndexOf(items, id);
    var up := MoveItem(items, id, Up);
    assert up[i - 1].id == id;
    IndexAt(up, id, i - 1);
    assert IndexOf(up, id) == i - 1;
    var back := MoveItem(up, id, Down);
    assert back == items;
  }

  /** Moving an item down and then up again restores the list, unless the
      first move was refused. Unlike the opposite order this needs distinct
      ids: with two items sharing an id, `findIndex` finds the other one
      after the first move. */
  lemma MoveDownThenUp(items: seq<Item>, id: int)
    requires HasId(items, id) && DistinctIds(items) && !AtBoundary(items, id, Down)
    ensures HasId(MoveItem(items, id, Down), id)
    ensures MoveItem(MoveItem(items, id, Down), id, Up) == items
  {
    var i := IndexOf(items, id);
    var down := MoveItem(items, id, Down);
    assert down[i + 1].id == id;
    assert down[i].id != id;
    IndexAt(down, id, i + 1);
    assert IndexOf(down, id) == i + 1;
    var back := MoveItem(down, id, Up);
    assert back == items;
  }

  /** If `id` first appears at `j` in `s`, `IndexOf` finds it there. */
  lemma IndexAt(s: seq<Item>, id: int, j: nat)
    requires j < |s| && s[j].id == id
    requires forall k :: 0 <= k < j ==> s[k].id != id
    ensures HasId(s, id) && IndexOf(s, id) == j
  {
    assert Ids(s)[j] == id;
  }
}

=== FILE: follow_button.dfy ===
/**
 * The follow button on a profile: its following flag, the status check on
 * mount, the click handler, and when it renders nothing.
 */
module FollowButton {
  import opened Wrappers
  import Auth
  import Social

  datatype ButtonState = ButtonState(following: bool, checking: bool)

  /** `following` starts at `initialFollowing`, which defaults to false;
      `checkingStatus` starts true. */
  function Init(initialFollowing: Option<bool>): (st: ButtonState)
    ensures st.following == (initialFollowing == Some(true))
    ensures st.checking
  {
    ButtonState(if initialFollowing.Some? then initialFollowing.value else false, true)
  }

  /** The status check on mount: with a user, `following` takes the value
      `isFollowing` returned (unchanged if it threw) and checking ends; with
      no user nothing happens. */
  function CheckStatus(st: ButtonState, user: Option<Auth.UserId>, reply: Option<bool>): (r: ButtonState)
    ensures user.None? ==> r == st
    ensures user.Some? ==> !r.checking
    ensures user.Some? && reply.Some? ==> r.following == reply.value
    ensures reply.None? ==> r.following == st.following
  {
    if user.None? then st
    else ButtonState(if reply.Some? then reply.value else st.following, false)
  }

  /** The button renders nothing without a user or on one's own profile. */
  predicate Hidden(user: Option<Auth.UserId>, profileId: Auth.UserId)
  {
    user.None? || user.value == profileId
  }

  datatype View = Nothing | Spinner | Label(text: string)

  function Render(st: ButtonState, user: Option<Auth.UserId>, profileId: Auth.UserId, busy: bool): (v: View)
    ensures v == Nothing <==> Hidden(user, profileId)
    ensures !Hidden(user, profileId) ==> (v == Spinner <==> st.checking || busy)
    ensures v.Label? ==> !st.checking && !busy && v.text == (if st.following then "Unfollow" else "Follow")
  {
    if Hidden(user, profileId) then Nothing
    else if st.checking || busy then Spinner
    else Label(if st.following then "Unfollow" else "Follow")
  }

  datatype FollowCall = Follow(target: Auth.UserId) | Unfollow(target: Auth.UserId)

  /** The effect of a click: the new state, the call made, and the value
      passed to `onFollowChange`. */
  datatype Click = Click(state: ButtonState, call: Option<FollowCall>, notified: Option<bool>)

  /** `handleFollow`: without a user nothing; otherwise unfollow when
      following, follow when not; only if the call returned does the flag
      flip and the callback receive the new value. */
  function HandleFollow(st: ButtonState, user: Option<Auth.UserId>, profileId: Auth.UserId, reply: Reply): (c: Click)
    ensures user.None? ==> c == Click(st, None, None)
    ensures user.Some? ==> c.call == Some(if st.following then Unfollow(profileId) else Follow(profileId))
    ensures reply.Failed? ==> c.state == st && c.notified == None
    ensures user.Some? && reply == Done ==>
      c.state == st.(following := !st.following) && c.notified == Some(c.state.following)
  {
    if user.None? then Click(st, None, None)
    else
      var call := if st.following then Unfollow(profileId) else Follow(profileId);
      if reply == Done then
        var next := st.(following := !st.following);
        Click(next, Some(call), Some(next.following))
      else Click(st, Some(call), None)
  }

  /** Two successful clicks return the button to where it was, having
      followed and then unfollowed (or the reverse). */
  lemma ClickTwice(st: ButtonState, user: Auth.UserId, profileId: Auth.UserId)
    ensures HandleFollow(HandleFollow(st, Some(user), profileId, Done).state, Some(user), profileId, Done).state == st
    ensures
      var first := HandleFollow(st, Some(user), profileId, Done);
      var second := HandleFollow(first.state, Some(user), profileId, Done);
      first.call.value.target == second.call.value.target == profileId
      && first.call.value.Follow? != second.call.value.Follow?
  {
  }

  // ---------------------------------------------------------------------
  // The button wired to the social facade
  // ---------------------------------------------------------------------

  /** The status check through the facade's `isFollowing`, which never
      throws: a failed lookup reads as false, so after the check the flag is
      exactly whether a successful lookup saw the follow row. */
  lemma CheckStatusSeesFollows(st: ButtonState, store: Social.Store, user: Auth.UserId, profileId: Auth.UserId,
                               lookupFails: bool)
    ensures
      var r := CheckStatus(st, Some(user), Some(Social.IsFollowing(store, Some(user), profileId, lookupFails)));
      && !r.checking
      && r.following == (!lookupFails && (user, profileId) in store.follows)
  {
  }

  /** The flag shown agrees with the follows table. */
  predicate InSync(st: ButtonState, store: Social.Store, user: Auth.UserId, profileId: Auth.UserId)
  {
    st.following == ((user, profileId) in store.follows)
  }

  /** The facade call `handleFollow` makes, and what it did to the store. */
  function FollowWrite(st: ButtonState, store: Social.Store, user: Auth.UserId, profileId: Auth.UserId,
                       reply: Reply): (Social.Store, Social.WriteStatus)
  {
    if st.following then Social.UnfollowUser(store, Some(user), profileId, reply)
    else Social.FollowUser(store, Some(user), profileId, reply)
  }

  /** `handleFollow` on top of the facade as written: `followUser` and
      `unfollowUser` catch their own errors, so the awaited call always
      resolves and the flag flips whatever the write did. */
  function FollowAsWritten(st: ButtonState, store: Social.Store, user: Auth.UserId, profileId: Auth.UserId,
                           reply: Reply): (Click, Social.Store)
  {
    (HandleFollow(st, Some(user), profileId, Done), FollowWrite(st, store, user, profileId, reply).0)
  }

  /** A failed follow still shows "Unfollow" and reports the follow to
      `onFollowChange`, while the follows table is unchanged. */
  lemma FailedFollowStillShown(st: ButtonState, store: Social.Store, user: Auth.UserId, profileId: Auth.UserId,
                               message: string)
    requires InSync(st, store, user, profileId) && !st.following && !Hidden(Some(user), profileId)
    ensures
      var (click, after) := FollowAsWritten(st, store, user, profileId, Failed(message));
      && after == store
      && click.state.following && click.notified == Some(true)
      && !Social.IsFollowing(after, Some(user), profileId, false)
      && !InSync(click.state, after, user, profileId)
  {
  }

  /** The evidently intended wiring: the flag flips only when the facade
      reports the write as made. */
  function FollowReported(st: ButtonState, store: Social.Store, user: Auth.UserId, profileId: Auth.UserId,
                          reply: Reply): (Click, Social.Store)
  {
    var (after, status) := FollowWrite(st, store, user, profileId, reply);
    (HandleFollow(st, Some(user), profileId, if status == Social.Written then Done else Failed("")), after)
  }

  /** With that wiring the flag stays in step with the follows table whatever
      the reply, and nothing is flipped or reported unless the table changed. */
  lemma FollowReportedKeepsSync(st: ButtonState, store: Social.Store, user: Auth.UserId, profileId: Auth.UserId,
                                reply: Reply)
    requires InSync(st, store, user, profileId)
    ensures InSync(FollowReported(st, store, user, profileId, reply).0.state,
                   FollowReported(st, store, user, profileId, reply).1, user, profileId)
    ensures FollowReported(st, store, user, profileId, reply).1 == store ==>
      FollowReported(st, store, user, profileId, reply).0.state == st
      && FollowReported(st, store, user, profileId, reply).0.notified.None?
  {
  }
}

=== FILE: radix.dfy ===
/**
 * Positional notation in a base between 2 and 36 with the digits 0-9a-z, as
 * JavaScript's `Number.prototype.toString(radix)` writes integers, and its
 * inverse. The cache header uses base 10, the version hash base 36.
 */
module Radix {

  type Base = b: nat | 2 <= b <= 36 witness 10

  /** `c` is a digit whose value is below `base`. */
  predicate IsDigit(c: char, base: Base)
  {
    || ('0' <= c <= '9' && (c as int - '0' as int) < base)
    || ('a' <= c <= 'z' && (c as int - 'a' as int) + 10 < base)
  }

  /** The character for digit value `d`: '0'..'9', then 'a'..'z'. */
  function DigitChar(d: nat, base: Base): (c: char)
    requires d < base
    ensures IsDigit(c, base)
    ensures DigitValue(c, base) == d
  {
    if d < 10 then ('0' as int + d) as char else ('a' as int + d - 10) as char
  }

  function DigitValue(c: char, base: Base): (d: nat)
    requires IsDigit(c, base)
    ensures d < base
  {
    if '0' <= c <= '9' then c as int - '0' as int else c as int - 'a' as int + 10
  }

  predicate AllDigits(s: string, base: Base)
  {
    forall k :: 0 <= k < |s| ==> IsDigit(s[k], base)
  }

  /** Canonical digit strings: non-empty, and no leading zero unless the
      string is "0" itself. */
  predicate Canonical(s: string, base: Base)
  {
    |s| > 0 && AllDigits(s, base) && (s[0] == '0' ==> s == "0")
  }

  lemma DivMod(n: nat, base: Base)
    ensures n == (n / base) * base + n % base
    ensures 0 <= n % base < base
    ensures n >= base ==> 0 < n / base < n
  {
  }

  /** The digits of `n` in `base`, most significant first. */
  function Digits(n: nat, base: Base): (s: string)
    ensures Canonical(s, base)
    ensures n == 0 <==> s == "0"
    decreases n
  {
    if n < base then [DigitChar(n, base)]
    else
      DivMod(n, base);
      Digits(n / base, base) + [DigitChar(n % base, base)]
  }

  /** The number a digit string denotes. */
  function Value(s: string, base: Base): nat
    requires AllDigits(s, base)
  {
    if |s| == 0 then 0
    else Value(s[..|s| - 1], base) * base + DigitValue(s[|s| - 1], base)
  }

  /** Reading back the digits of `n` gives `n`. */
  lemma {:induction false} ValueOfDigits(n: nat, base: Base)
    ensures Value(Digits(n, base), base) == n
    decreases n
  {
    var s := Digits(n, base);
    if n < base {
      assert s[..0] == [];
    } else {
      DivMod(n, base);
      var q, r := n / base, n % base;
      var prefix := Digits(q, base);
      assert s == prefix + [DigitChar(r, base)];
      assert s[..|s| - 1] == prefix;
      ValueOfDigits(q, base);
      assert Value(s, base) == q * base + r;
    }
  }

  /** Writing the value of a canonical digit string gives back the string, so
      `Digits` is a bijection between naturals and canonical strings. */
  lemma {:induction false} DigitsOfValue(s: string, base: Base)
    requires Canonical(s, base)
    ensures Digits(Value(s, base), base) == s
    decreases |s|
  {
    var last := DigitValue(s[|s| - 1], base);
    if |s| == 1 {
      assert s[..0] == [];
      assert Value(s, base) == last;
      assert DigitChar(last, base) == s[0];
    } else {
      var prefix := s[..|s| - 1];
      assert prefix[0] == s[0];
      assert Canonical(prefix, base);
      DigitsOfValue(prefix, base);
      var v := Value(prefix, base);
      assert v > 0;
      var n := Value(s, base);
      assert n == v * base + last;
      DivModUnique(n, base, v, last);
      assert DigitChar(last, base) == s[|s| - 1];
      assert Digits(n, base) == Digits(v, base) + [DigitChar(last, base)];
    }
  }

  lemma DivModUnique(n: nat, base: Base, q: nat, r: nat)
    requires r < base && n == q * base + r
    ensures n / base == q && n % base == r
    ensures q > 0 ==> n >= base
  {
    var q', r' := n / base, n % base;
    assert q' * base + r' == q * base + r;
    if q > q' {
      GapAtLeast(q, q', base);
    } else if q < q' {
      GapAtLeast(q', q, base);
    }
    if q > 0 {
      GapAtLeast(q, 0, base);
    }
  }

  /** Two multiples of `b` with different factors lie at least `b` apart. */
  lemma GapAtLeast(a: int, c: int, b: nat)
    requires a > c
    ensures a * b - c * b >= b
  {
    assert a * b - c * b == (a - c) * b;
    MulAtLeast(a - c, b);
  }

  lemma MulAtLeast(d: int, b: nat)
    requires d >= 1
    ensures d * b >= b
  {
    assert d * b == (d - 1) * b + b;
  }
}

=== FILE: signup.dfy ===
/**
 * The sign-up form's submit handler: an ordered chain of checks that stops at
 * the first failure with a message, or hands the normalised fields to the
 * account-creation call.
 */
module Signup {
  import opened Wrappers
  import opened Text

  datatype SignupForm = SignupForm(
    name: string, username: string, email: string, password: string, confirmPassword: string)

  /** The four arguments passed to `signUp`, in order. */
  datatype SignUpArgs = SignUpArgs(email: string, password: string, fullName: string, username: string)

  /** The checks of `handleSignup`, in the order they run. */
  datatype Failure = FieldsMissing | PasswordTooShort | PasswordsDiffer | InvalidEmail | InvalidUsername

  /** The message each failed check puts in `formError`. */
  function Message(e: Failure): string
  {
    match e
    case FieldsMissing => "All fields are required"
    case PasswordTooShort => "Password must be at least 6 characters"
    case PasswordsDiffer => "Passwords do not match"
    case InvalidEmail => "Please enter a valid email address"
    case InvalidUsername => "Username can only contain lowercase letters, numbers, dots and underscores"
  }

  const SignupFailed: string := "Failed to create account"

  /** Minimum password length, in UTF-16 code units as `length` counts. */
  const MinPasswordLength: nat := 6

  // ---------------------------------------------------------------------
  // The e-mail pattern ^[^\s@]+@[^\s@]+\.[^\s@]+$
  // ---------------------------------------------------------------------

  /** `[^\s@]`. */
  predicate EmailChar(c: char)
  {
    !IsSpace(c) && c != '@'
  }

  predicate EmailChars(s: string)
  {
    forall k :: 0 <= k < |s| ==> EmailChar(s[k])
  }

  /** The pattern read as a regular expression: `s` splits at an '@' at `i`
      and a '.' at `j` into three non-empty runs of `[^\s@]`. */
  ghost predicate EmailPattern(s: string)
  {
    exists i, j :: 0 < i && i + 1 < j < |s| - 1 && s[i] == '@' && s[j] == '.'
      && EmailChars(s[..i]) && EmailChars(s[i + 1..j]) && EmailChars(s[j + 1..])
  }

  /** Index of the first occurrence of `c` in `s`. */
  function Find(s: string, c: char): (r: Option<nat>)
    ensures r.None? <==> c !in s
    ensures r.Some? ==> r.value < |s| && s[r.value] == c && c !in s[..r.value]
  {
    if |s| == 0 then None
    else if s[0] == c then Some(0)
    else
      match Find(s[1..], c)
      case None => None
      case Some(k) =>
        assert s[..k + 1] == [s[0]] + s[1..][..k];
        Some(k + 1)
  }

  /** A scanning check for the pattern: no whitespace, one '@' with text
      before it, and a '.' strictly inside the part after it. */
  function IsEmail(s: string): (b: bool)
  {
    match Find(s, '@')
    case None => false
    case Some(i) =>
      var domain := s[i + 1..];
      && i > 0 && NoSpace(s) && '@' !in domain
      && |domain| >= 3 && '.' in domain[1..|domain| - 1]
  }

  /** The scanning check accepts exactly the strings the pattern matches. */
  lemma EmailCheckMatchesPattern(s: string)
    ensures IsEmail(s) <==> EmailPattern(s)
  {
    if IsEmail(s) {
      EmailCheckSound(s);
    }
    if EmailPattern(s) {
      var i, j :| 0 < i && i + 1 < j < |s| - 1 && s[i] == '@' && s[j] == '.'
        && EmailChars(s[..i]) && EmailChars(s[i + 1..j]) && EmailChars(s[j + 1..]);
      EmailCheckComplete(s, i, j);
    }
  }

  lemma EmailCheckSound(s: string)
    requires IsEmail(s)
    ensures EmailPattern(s)
  {
    var i := Find(s, '@').value;
    var domain := s[i + 1..];
    var inner := domain[1..|domain| - 1];
    var m :| 0 <= m < |inner| && inner[m] == '.';
    var j := i + 2 + m;
    assert 0 < i && i + 1 < j < |s| - 1;
    assert s[j] == '.';
    var local, host, top := s[..i], s[i + 1..j], s[j + 1..];
    assert EmailChars(local) by {
      forall k | 0 <= k < |local| ensures EmailChar(local[k]) {
        assert local[k] == s[k];
      }
    }
    assert EmailChars(host) by {
      forall k | 0 <= k < |host| ensures EmailChar(host[k]) {
        assert host[k] == s[i + 1 + k];
      }
    }
    assert EmailChars(top) by {
      forall k | 0 <= k < |top| ensures EmailChar(top[k]) {
        assert top[k] == s[j + 1 + k];
      }
    }
  }

  lemma EmailCheckComplete(s: string, i: nat, j: nat)
    requires 0 < i && i + 1 < j < |s| - 1 && s[i] == '@' && s[j] == '.'
    requires EmailChars(s[..i]) && EmailChars(s[i + 1..j]) && EmailChars(s[j + 1..])
    ensures IsEmail(s)
  {
    var local, host, top := s[..i], s[i + 1..j], s[j + 1..];
    forall k | 0 <= k < |s| && k != i
      ensures !IsSpace(s[k]) && s[k] != '@'
    {
      if k < i {
        assert s[k] == local[k];
      } else if k < j {
        assert s[k] == host[k - i - 1];
      } else if k > j {
        assert s[k] == top[k - j - 1];
      }
    }
    assert NoSpace(s);
    assert '@' !in local;
    assert Find(s, '@') == Some(i);
    var domain := s[i + 1..];
    assert '@' !in domain by {
      forall k | 0 <= k < |domain| ensures domain[k] != '@' {
        assert domain[k] == s[i + 1 + k];
      }
    }
    assert domain[1..|domain| - 1][j - i - 2] == '.';
  }

  // ---------------------------------------------------------------------
  // The username pattern ^[a-z0-9_\.]+$
  // ---------------------------------------------------------------------

  predicate UsernameChar(c: char)
  {
    ('a' <= c <= 'z') || ('0' <= c <= '9') || c == '_' || c == '.'
  }

  predicate IsUsername(s: string)
  {
    |s| > 0 && forall k :: 0 <= k < |s| ==> UsernameChar(s[k])
  }

  // ---------------------------------------------------------------------
  // The chain of checks
  // ---------------------------------------------------------------------

  /** Check 1: a name, username or email that is blank after trimming, or an
      empty password or confirmation. */
  predicate MissingField(f: SignupForm)
  {
    Trim(f.name) == [] || Trim(f.username) == [] || Trim(f.email) == []
    || f.password == [] || f.confirmPassword == []
  }

  /** `handleSignup`'s validation: the first failing check's message, or the
      arguments for `signUp`. */
  function Validate(f: SignupForm): (r: Result<SignUpArgs, Failure>)
    ensures r == Err(FieldsMissing) <==> MissingField(f)
    ensures r == Err(PasswordTooShort) <==>
      !MissingField(f) && |Utf16(f.password)| < MinPasswordLength
    ensures r == Err(PasswordsDiffer) <==>
      !MissingField(f) && |Utf16(f.password)| >= MinPasswordLength && f.password != f.confirmPassword
    ensures r == Err(InvalidEmail) <==>
      !MissingField(f) && |Utf16(f.password)| >= MinPasswordLength && f.password == f.confirmPassword
      && !EmailPattern(Trim(f.email))
    ensures r == Err(InvalidUsername) <==>
      !MissingField(f) && |Utf16(f.password)| >= MinPasswordLength && f.password == f.confirmPassword
      && EmailPattern(Trim(f.email)) && !IsUsername(Lower(f.username))
    ensures r.Ok? <==>
      !MissingField(f) && |Utf16(f.password)| >= MinPasswordLength && f.password == f.confirmPassword
      && EmailPattern(Trim(f.email)) && IsUsername(Lower(f.username))
    ensures r.Ok? ==> r.value == SignUpArgs(Trim(f.email), f.password, Trim(f.name), Lower(f.username))
  {
    var email, username := Trim(f.email), Lower(f.username);
    if MissingField(f) then Err(FieldsMissing)
    else if |Utf16(f.password)| < MinPasswordLength then Err(PasswordTooShort)
    else if f.password != f.confirmPassword then Err(PasswordsDiffer)
    else if !IsEmail(email) then
      EmailCheckMatchesPattern(email);
      Err(InvalidEmail)
    else if !IsUsername(username) then
      EmailCheckMatchesPattern(email);
      Err(InvalidUsername)
    else
      EmailCheckMatchesPattern(email);
      UsernameUntrimmed(username);
      Ok(SignUpArgs(email, f.password, Trim(f.name), Trim(username)))
  }

  /** A username matching the pattern has no whitespace, so trimming it
      changes nothing. */
  lemma UsernameUntrimmed(u: string)
    requires IsUsername(u)
    ensures Trim(u) == u
  {
    assert NoSpace(u) by {
      forall k | 0 <= k < |u| ensures !IsSpace(u[k]) {
        assert UsernameChar(u[k]);
      }
    }
    TrimNoSpace(u);
  }

  /** On success the username handed to `signUp` matches `[a-z0-9_.]+`, the
      name and email carry no surrounding whitespace, and the email matches
      the pattern. */
  lemma AcceptedArgumentsAreNormal(f: SignupForm)
    requires Validate(f).Ok?
    ensures IsUsername(Validate(f).value.username)
    ensures Validate(f).value.username == Trim(Lower(f.username))
    ensures EmailPattern(Validate(f).value.email)
    ensures Trim(Validate(f).value.email) == Validate(f).value.email
    ensures Trim(Validate(f).value.fullName) == Validate(f).value.fullName
    ensures Validate(f).value.password == f.password
  {
    var u := Lower(f.username);
    var v := Validate(f).value;
    assert v == SignUpArgs(Trim(f.email), f.password, Trim(f.name), u);
    assert IsUsername(u);
    UsernameUntrimmed(u);
    TrimIdempotent(f.email);
    TrimIdempotent(f.name);
  }

  /** Whitespace is never a username character, and lowercasing keeps it. */
  lemma SpaceIsNotUsernameChar(c: char)
    requires IsSpace(c)
    ensures !UsernameChar(c) && LowerChar(c) == c
  {
  }

  /** The username is checked before trimming, so leading or trailing
      whitespace fails the username check even though it passed the
      required-field check. */
  lemma SurroundingSpaceRejected(f: SignupForm)
    requires !MissingField(f) && |Utf16(f.password)| >= MinPasswordLength
    requires f.password == f.confirmPassword && EmailPattern(Trim(f.email))
    requires |f.username| > 0 && (IsSpace(f.username[0]) || IsSpace(f.username[|f.username| - 1]))
    ensures Validate(f) == Err(InvalidUsername)
  {
    var u := Lower(f.username);
    var k := if IsSpace(f.username[0]) then 0 else |f.username| - 1;
    SpaceIsNotUsernameChar(f.username[k]);
    assert u[k] == LowerChar(f.username[k]);
    assert !IsUsername(u);
  }

  /** The username is checked after lowercasing, so capitals are accepted and
      arrive lowercased. */
  lemma CapitalsAccepted(f: SignupForm)
    requires !MissingField(f) && |Utf16(f.password)| >= MinPasswordLength
    requires f.password == f.confirmPassword && EmailPattern(Trim(f.email))
    requires |f.username| > 0
    requires forall k :: 0 <= k < |f.username| ==> UsernameChar(f.username[k]) || 'A' <= f.username[k] <= 'Z'
    ensures Validate(f).Ok?
    ensures IsUsername(Validate(f).value.username)
  {
    var u := Lower(f.username);
    forall k | 0 <= k < |u|
      ensures UsernameChar(u[k])
    {
      assert u[k] == LowerChar(f.username[k]);
    }
    assert IsUsername(u);
    UsernameUntrimmed(u);
  }

  // ---------------------------------------------------------------------
  // Submitting
  // ---------------------------------------------------------------------

  /** What `signUp` did: resolved, or threw an error whose message may be
      empty. */
  datatype SignUpReply = Resolved | Threw(message: string)

  /** The effect of one submit: the call made to `signUp`, if any, and the
      message the form shows afterwards. */
  datatype Submission = Submission(call: Option<SignUpArgs>, formError: string)

  /** What one submit does once validation has produced `v`. */
  function Submit(v: Result<SignUpArgs, Failure>, reply: SignUpReply): (s: Submission)
    ensures v.Err? ==> s.call == None && s.formError == Message(v.error)
    ensures v.Ok? ==> s.call == Some(v.value)
    ensures s.call.Some? && reply == Resolved ==> s.formError == ""
    ensures s.call.Some? && reply.Threw? ==>
      s.formError == (if reply.message == "" then SignupFailed else reply.message)
    ensures s.formError != "" || (s.call.Some? && reply == Resolved)
  {
    match v
    case Err(e) => Submission(None, Message(e))
    case Ok(args) =>
      match reply
      case Resolved => Submission(Some(args), "")
      case Threw(message) => Submission(Some(args), if message == "" then SignupFailed else message)
  }

  /** `handleSignup`: clear the message, validate, and call `signUp` only on
      success; a thrown error shows its message, or a default when it has
      none. */
  function HandleSignup(f: SignupForm, reply: SignUpReply): (s: Submission)
    ensures Validate(f).Err? ==> s.call == None && s.formError == Message(Validate(f).error)
    ensures Validate(f).Ok? ==> s.call == Some(Validate(f).value)
    ensures s.call.Some? && reply == Resolved ==> s.formError == ""
    ensures s.call.Some? && reply.Threw? ==>
      s.formError == (if reply.message == "" then SignupFailed else reply.message)
    ensures s.formError != "" || (s.call.Some? && reply == Resolved)
  {
    Submit(Validate(f), reply)
  }
}

=== FILE: social.dfy ===
/**
 * The social facade: likes, follows, comments and shares written to an
 * abstract store, the lookups over it, and the per-user statistics. Whether a
 * remote write succeeded is an input; a failed write leaves the store as it
 * was.
 */
module Social {
  import opened Wrappers
  import Text
  import Auth

  type CurationId = string

  datatype Comment = Comment(id: string, userId: Auth.UserId, curationId: CurationId, content: string, updatedAt: string)

  datatype Share = Share(userId: Auth.UserId, curationId: CurationId, platform: string)

  /** The tables the facade touches. A like is a (user, curation) pair, a
      follow a (follower, followed) pair, a curation an (id, owner) pair. */
  datatype Store = Store(
    likes: set<(Auth.UserId, CurationId)>,
    follows: set<(Auth.UserId, Auth.UserId)>,
    comments: seq<Comment>,
    shares: seq<Share>,
    curations: set<(CurationId, Auth.UserId)>)

  /** How a write ended: refused locally, failed remotely, or written. */
  datatype WriteStatus = NotLoggedIn | SelfFollow | WriteFailed(message: string) | Written

  /** The common shape of every write: nothing without a user, nothing when
      the remote call fails. */
  function Guarded(store: Store, user: Option<Auth.UserId>, reply: Reply, written: Store): (r: (Store, WriteStatus))
    ensures r.1 == Written <==> user.Some? && reply == Done
    ensures r.0 == (if r.1 == Written then written else store)
  {
    if user.None? then (store, NotLoggedIn)
    else if reply.Failed? then (store, WriteFailed(reply.message))
    else (written, Written)
  }

  // ---------------------------------------------------------------------
  // Likes and follows
  // ---------------------------------------------------------------------

  /** `likeCuration`: insert (user, curation). */
  function LikeCuration(store: Store, user: Option<Auth.UserId>, curationId: CurationId, reply: Reply): (r: (Store, WriteStatus))
    ensures r.1 == Written <==> user.Some? && reply == Done
    ensures r.1 == Written ==> r.0.likes == store.likes + {(user.value, curationId)}
    ensures r.0.follows == store.follows && r.0.comments == store.comments
    ensures r.0.shares == store.shares && r.0.curations == store.curations
    ensures r.1 != Written ==> r.0 == store
  {
    Guarded(store, user, reply,
      if user.Some? then store.(likes := store.likes + {(user.value, curationId)}) else store)
  }

  /** `unlikeCuration`: delete the rows matching (user, curation). */
  function UnlikeCuration(store: Store, user: Option<Auth.UserId>, curationId: CurationId, reply: Reply): (r: (Store, WriteStatus))
    ensures r.1 == Written <==> user.Some? && reply == Done
    ensures r.1 == Written ==> (user.value, curationId) !in r.0.likes
    ensures user.Some? ==> forall p :: p != (user.value, curationId) ==> (p in r.0.likes <==> p in store.likes)
    ensures r.0.likes <= store.likes
    ensures r.0.follows == store.follows && r.0.comments == store.comments
    ensures r.0.shares == store.shares && r.0.curations == store.curations
    ensures r.1 != Written ==> r.0 == store
  {
    Guarded(store, user, reply,
      if user.Some? then store.(likes := store.likes - {(user.value, curationId)}) else store)
  }

  /** `followUser`: refuse without a user or on a self-follow, else insert
      (user, target). */
  function FollowUser(store: Store, user: Option<Auth.UserId>, target: Auth.UserId, reply: Reply): (r: (Store, WriteStatus))
    ensures r.1 == Written <==> user.Some? && user.value != target && reply == Done
    ensures user.Some? && user.value == target ==> r == (store, SelfFollow)
    ensures r.1 == Written ==> user.value != target && r.0.follows == store.follows + {(user.value, target)}
    ensures r.0.likes == store.likes && r.0.comments == store.comments
    ensures r.0.shares == store.shares && r.0.curations == store.curations
    ensures r.1 != Written ==> r.0 == store
  {
    if user.Some? && user.value == target then (store, SelfFollow)
    else Guarded(store, user, reply,
      if user.Some? then store.(follows := store.follows + {(user.value, target)}) else store)
  }

  /** `unfollowUser`: delete the rows matching (user, target). */
  function UnfollowUser(store: Store, user: Option<Auth.UserId>, target: Auth.UserId, reply: Reply): (r: (Store, WriteStatus))
    ensures r.1 == Written <==> user.Some? && reply == Done
    ensures r.1 == Written ==> (user.value, target) !in r.0.follows
    ensures user.Some? ==> forall p :: p != (user.value, target) ==> (p in r.0.follows <==> p in store.follows)
    ensures r.0.follows <= store.follows
    ensures r.0.likes == store.likes && r.0.comments == store.comments
    ensures r.0.shares == store.shares && r.0.curations == store.curations
    ensures r.1 != Written ==> r.0 == store
  {
    Guarded(store, user, reply,
      if user.Some? then store.(follows := store.follows - {(user.value, target)}) else store)
  }

  /** `isLiked`: false without a user or on a lookup error; otherwise whether
      the single-row lookup found the pair. */
  function IsLiked(store: Store, user: Option<Auth.UserId>, curationId: CurationId, lookupFails: bool): (b: bool)
    ensures b ==> user.Some? && !lookupFails
  {
    user.Some? && !lookupFails && (user.value, curationId) in store.likes
  }

  /** `isFollowing`, the same over follows. */
  function IsFollowing(store: Store, user: Option<Auth.UserId>, target: Auth.UserId, lookupFails: bool): (b: bool)
    ensures b ==> user.Some? && !lookupFails
  {
    user.Some? && !lookupFails && (user.value, target) in store.follows
  }

  /** Liking, then unliking, a curation one had not liked restores the likes. */
  lemma LikeThenUnlike(store: Store, user: Auth.UserId, curationId: CurationId)
    requires (user, curationId) !in store.likes
    ensures UnlikeCuration(LikeCuration(store, Some(user), curationId, Done).0, Some(user), curationId, Done).0 == store
  {
    var liked := LikeCuration(store, Some(user), curationId, Done).0;
    assert liked.likes - {(user, curationId)} == store.likes;
  }

  /** A successful like is seen by `isLiked`; a successful unlike is not. */
  lemma LikeIsSeen(store: Store, user: Auth.UserId, curationId: CurationId)
    ensures IsLiked(LikeCuration(store, Some(user), curationId, Done).0, Some(user), curationId, false)
    ensures !IsLiked(UnlikeCuration(store, Some(user), curationId, Done).0, Some(user), curationId, false)
  {
  }

  /** A successful follow of someone else is seen by `isFollowing`; a
      successful unfollow is not; a self-follow never is written. */
  lemma FollowIsSeen(store: Store, user: Auth.UserId, target: Auth.UserId)
    ensures user != target ==> IsFollowing(FollowUser(store, Some(user), target, Done).0, Some(user), target, false)
    ensures !IsFollowing(UnfollowUser(store, Some(user), target, Done).0, Some(user), target, false)
    ensures (user, user) !in store.follows ==> !IsFollowing(FollowUser(store, Some(user), user, Done).0, Some(user), user, false)
  {
  }

  // ---------------------------------------------------------------------
  // Comments
  // ---------------------------------------------------------------------

  /** `addComment`: append the trimmed content under the current user. The
      new row's id and timestamp come from the store and are inputs. */
  function AddComment(store: Store, user: Option<Auth.UserId>, curationId: CurationId, content: string,
                      newId: string, now: string, reply: Reply): (r: (Store, WriteStatus))
    ensures r.1 == Written <==> user.Some? && reply == Done
    ensures r.1 == Written ==>
      && |r.0.comments| == |store.comments| + 1
      && r.0.comments[..|store.comments|] == store.comments
      && var c := r.0.comments[|store.comments|];
         c.userId == user.value && c.curationId == curationId && c.content == Text.Trim(content) && c.id == newId
    ensures r.0.likes == store.likes && r.0.follows == store.follows
    ensures r.0.shares == store.shares && r.0.curations == store.curations
    ensures r.1 != Written ==> r.0 == store
  {
    Guarded(store, user, reply,
      if user.Some? then
        store.(comments := store.comments + [Comment(newId, user.value, curationId, Text.Trim(content), now)])
      else store)
  }

  predicate Owns(c: Comment, commentId: string, user: Auth.UserId)
  {
    c.id == commentId && c.userId == user
  }

  /** The rows of `.update(...).match({ id, user_id })`. */
  function EditMatching(cs: seq<Comment>, commentId: string, user: Auth.UserId, content: string, now: string): (r: seq<Comment>)
    ensures |r| == |cs|
    ensures forall k :: 0 <= k < |cs| && !Owns(cs[k], commentId, user) ==> r[k] == cs[k]
    ensures forall k :: 0 <= k < |cs| && Owns(cs[k], commentId, user) ==>
      r[k] == cs[k].(content := content, updatedAt := now)
  {
    seq(|cs|, k requires 0 <= k < |cs| =>
      if Owns(cs[k], commentId, user) then cs[k].(content := content, updatedAt := now) else cs[k])
  }

  /** `updateComment`: rewrite only the row with this id written by the
      current user. */
  function UpdateComment(store: Store, user: Option<Auth.UserId>, commentId: string, content: string,
                         now: string, reply: Reply): (r: (Store, WriteStatus))
    ensures r.1 == Written <==> user.Some? && reply == Done
    ensures |r.0.comments| == |store.comments|
    ensures forall k :: 0 <= k < |store.comments| && (user.None? || store.comments[k].userId != user.value) ==>
      r.0.comments[k] == store.comments[k]
    ensures forall k :: 0 <= k < |store.comments| && store.comments[k].id != commentId ==>
      r.0.comments[k] == store.comments[k]
    ensures r.1 == Written ==>
      forall k :: 0 <= k < |store.comments| && Owns(store.comments[k], commentId, user.value) ==>
        r.0.comments[k] == store.comments[k].(content := Text.Trim(content), updatedAt := now)
    ensures r.0.likes == store.likes && r.0.follows == store.follows
    ensures r.0.shares == store.shares && r.0.curations == store.curations
    ensures r.1 != Written ==> r.0 == store
  {
    Guarded(store, user, reply,
      if user.Some? then
        store.(comments := EditMatching(store.comments, commentId, user.value, Text.Trim(content), now))
      else store)
  }

  /** The rows left by `.delete().match({ id, user_id })`. */
  function DropMatching(cs: seq<Comment>, commentId: string, user: Auth.UserId): (r: seq<Comment>)
    ensures forall c :: c in r <==> c in cs && !Owns(c, commentId, user)
    ensures forall c :: multiset(r)[c] == (if Owns(c, commentId, user) then 0 else multiset(cs)[c])
    ensures |r| <= |cs|
  {
    if |cs| == 0 then []
    else
      var rest := DropMatching(cs[1..], commentId, user);
      assert cs == [cs[0]] + cs[1..];
      assert multiset(cs) == multiset([cs[0]]) + multiset(cs[1..]);
      var r := if Owns(cs[0], commentId, user) then rest else [cs[0]] + rest;
      assert multiset(r) == (if Owns(cs[0], commentId, user) then multiset{} else multiset([cs[0]])) + multiset(rest);
      r
  }

  /** `deleteComment`: remove only the row with this id written by the
      current user; every comment by anyone else survives. */
  function DeleteComment(store: Store, user: Option<Auth.UserId>, commentId: string, reply: Reply): (r: (Store, WriteStatus))
    ensures r.1 == Written <==> user.Some? && reply == Done
    ensures forall c :: c in store.comments && (user.None? || c.userId != user.value) ==> c in r.0.comments
    ensures forall c :: c in store.comments && c.id != commentId ==> c in r.0.comments
    ensures forall c :: c in r.0.comments ==> c in store.comments
    ensures r.1 == Written ==> forall c :: c in r.0.comments ==> !Owns(c, commentId, user.value)
    ensures r.1 == Written ==> forall c ::
      multiset(r.0.comments)[c] == (if Owns(c, commentId, user.value) then 0 else multiset(store.comments)[c])
    ensures r.0.likes == store.likes && r.0.follows == store.follows
    ensures r.0.shares == store.shares && r.0.curations == store.curations
    ensures r.1 != Written ==> r.0 == store
  {
    Guarded(store, user, reply,
      if user.Some? then store.(comments := DropMatching(store.comments, commentId, user.value)) else store)
  }

  // ---------------------------------------------------------------------
  // Sharing
  // ---------------------------------------------------------------------

  /** What `shareCuration` does after recording the share. */
  datatype ShareAction = NoAction | OpenWindow(url: string) | CopyLink(url: string)

  const TwitterEndpoint: string := "https://twitter.com/intent/tweet?url="
  const FacebookEndpoint: string := "https://www.facebook.com/sharer/sharer.php?u="
  const LinkedInEndpoint: string := "https://www.linkedin.com/sharing/share-offsite/?url="

  /** `${window.location.origin}/curation/${curationId}`. */
  function CurationUrl(origin: string, curationId: CurationId): string
  {
    origin + "/curation/" + curationId
  }

  /** The platform switch: three endpoints, and copying the link for any
      other platform. `encode` stands for `encodeURIComponent`. */
  function ShareTarget(platform: string, link: string, encode: string -> string): (a: ShareAction)
    ensures platform == "twitter" ==> a == OpenWindow(TwitterEndpoint + encode(link))
    ensures platform == "facebook" ==> a == OpenWindow(FacebookEndpoint + encode(link))
    ensures platform == "linkedin" ==> a == OpenWindow(LinkedInEndpoint + encode(link))
    ensures platform !in {"twitter", "facebook", "linkedin"} ==> a == CopyLink(link)
  {
    if platform == "twitter" then OpenWindow(TwitterEndpoint + encode(link))
    else if platform == "facebook" then OpenWindow(FacebookEndpoint + encode(link))
    else if platform == "linkedin" then OpenWindow(LinkedInEndpoint + encode(link))
    else CopyLink(link)
  }

  /** `shareCuration`: record the share, then open or copy the link. */
  function ShareCuration(store: Store, user: Option<Auth.UserId>, curationId: CurationId, platform: string,
                         origin: string, encode: string -> string, reply: Reply): (r: (Store, WriteStatus, ShareAction))
    ensures r.1 == Written <==> user.Some? && reply == Done
    ensures r.1 == Written ==>
      && r.0.shares == store.shares + [Share(user.value, curationId, platform)]
      && r.2 == ShareTarget(platform, CurationUrl(origin, curationId), encode)
    ensures r.1 != Written ==> r.0 == store && r.2 == NoAction
    ensures r.0.likes == store.likes && r.0.follows == store.follows
    ensures r.0.comments == store.comments && r.0.curations == store.curations
  {
    var (s, status) := Guarded(store, user, reply,
      if user.Some? then store.(shares := store.shares + [Share(user.value, curationId, platform)]) else store);
    (s, status, if status == Written then ShareTarget(platform, CurationUrl(origin, curationId), encode) else NoAction)
  }

  // ---------------------------------------------------------------------
  // Every write at once
  // ---------------------------------------------------------------------

  datatype Write =
    | Like(curationId: CurationId)
    | Unlike(curationId: CurationId)
    | Follow(target: Auth.UserId)
    | Unfollow(target: Auth.UserId)
    | AddNote(curationId: CurationId, content: string, newId: string, now: string)
    | EditNote(commentId: string, content: string, now: string)
    | DeleteNote(commentId: string)
    | ShareLink(curationId: CurationId, platform: string, origin: string)

  function Apply(store: Store, user: Option<Auth.UserId>, w: Write, reply: Reply, encode: string -> string): Store
  {
    match w
    case Like(c) => LikeCuration(store, user, c, reply).0
    case Unlike(c) => UnlikeCuration(store, user, c, reply).0
    case Follow(t) => FollowUser(store, user, t, reply).0
    case Unfollow(t) => UnfollowUser(store, user, t, reply).0
    case AddNote(c, content, id, now) => AddComment(store, user, c, content, id, now, reply).0
    case EditNote(id, content, now) => UpdateComment(store, user, id, content, now, reply).0
    case DeleteNote(id) => DeleteComment(store, user, id, reply).0
    case ShareLink(c, p, origin) => ShareCuration(store, user, c, p, origin, encode, reply).0
  }

  /** No write of any kind changes the store when nobody is logged in, and
      none changes it when the remote call fails. */
  lemma NoUserOrFailureNoChange(store: Store, user: Option<Auth.UserId>, w: Write, reply: Reply, encode: string -> string)
    requires user.None? || reply.Failed?
    ensures Apply(store, user, w, reply, encode) == store
  {
  }

  /** Nothing the current user writes changes another user's comments. */
  lemma OthersCommentsUntouched(store: Store, user: Option<Auth.UserId>, w: Write, reply: Reply,
                                encode: string -> string, c: Comment)
    requires c in store.comments
    requires user.None? || c.userId != user.value
    ensures c in Apply(store, user, w, reply, encode).comments
  {
    var r := Apply(store, user, w, reply, encode);
    match w
    case EditNote(id, content, now) =>
      var k :| 0 <= k < |store.comments| && store.comments[k] == c;
      assert r.comments[k] == c;
    case AddNote(_, _, _, _) =>
      var k :| 0 <= k < |store.comments| && store.comments[k] == c;
      if r != store {
        assert r.comments[k] == c;
      }
    case _ =>
  }

  // ---------------------------------------------------------------------
  // Statistics
  // ---------------------------------------------------------------------

  datatype Stats = Stats(followersCount: nat, followingCount: nat, curationsCount: nat, likesCount: nat)

  /** The exact counts the four queries ask for. */
  function TrueStats(store: Store, u: Auth.UserId): Stats
  {
    Stats(
      |set p | p in store.follows && p.1 == u|,
      |set p | p in store.follows && p.0 == u|,
      |set p | p in store.curations && p.1 == u|,
      |set p | p in store.likes && p.0 == u|)
  }

  /** Whether each query came back with a count (`count` may be null). */
  datatype CountReplies = CountReplies(followers: bool, following: bool, curations: bool, likes: bool)

  /** `getUserStats`: a missing count reads as 0, and an error reads as all
      zeros. */
  function GetUserStats(store: Store, u: Auth.UserId, replies: CountReplies, threw: bool): (s: Stats)
    ensures threw ==> s == Stats(0, 0, 0, 0)
    ensures !threw && replies == CountReplies(true, true, true, true) ==> s == TrueStats(store, u)
    ensures s.followersCount == (if !threw && replies.followers then TrueStats(store, u).followersCount else 0)
    ensures s.followingCount == (if !threw && replies.following then TrueStats(store, u).followingCount else 0)
    ensures s.curationsCount == (if !threw && replies.curations then TrueStats(store, u).curationsCount else 0)
    ensures s.likesCount == (if !threw && replies.likes then TrueStats(store, u).likesCount else 0)
  {
    var t := TrueStats(store, u);
    if threw then Stats(0, 0, 0, 0)
    else Stats(
      if replies.followers then t.followersCount else 0,
      if replies.following then t.followingCount else 0,
      if replies.curations then t.curationsCount else 0,
      if replies.likes then t.likesCount else 0)
  }

  /** A successful follow of someone not yet followed adds one to their
      follower count and one to the follower's following count. */
  lemma FollowCounts(store: Store, user: Auth.UserId, target: Auth.UserId)
    requires user != target && (user, target) !in store.follows
    ensures TrueStats(FollowUser(store, Some(user), target, Done).0, target).followersCount
         == TrueStats(store, target).followersCount + 1
    ensures TrueStats(FollowUser(store, Some(user), target, Done).0, user).followingCount
         == TrueStats(store, user).followingCount + 1
  {
    var after := FollowUser(store, Some(user), target, Done).0;
    assert (set p | p in after.follows && p.1 == target) == (set p | p in store.follows && p.1 == target) + {(user, target)};
    assert (set p | p in after.follows && p.0 == user) == (set p | p in store.follows && p.0 == user) + {(user, target)};
  }
}

=== FILE: social_actions.dfy ===
/**
 * The like / share / save bar under a curation: a like counter and two flags
 * updated optimistically once the remote call has returned.
 */
module SocialActions {
  import opened Wrappers
  import Auth
  import Social

  datatype ActionState = ActionState(likes: int, liked: bool, saved: bool)

  /** The counter starts at the `likesCount` prop; neither flag is set. */
  function Init(likesCount: int): (st: ActionState)
    ensures st.likes == likesCount && !st.liked && !st.saved
  {
    ActionState(likesCount, false, false)
  }

  /** The remote call a handler makes. */
  datatype Call = LikeCall | UnlikeCall | SaveCall | UnsaveCall | ShareCall(platform: string)

  /** `handleLike`: without a user nothing happens; otherwise unlike when
      liked and like when not, and update counter and flag only if the call
      returned. Unliking clamps the counter at 0. */
  function HandleLike(st: ActionState, hasUser: bool, reply: Reply): (r: (ActionState, Option<Call>))
    ensures !hasUser ==> r == (st, None)
    ensures hasUser ==> r.1 == Some(if st.liked then UnlikeCall else LikeCall)
    ensures reply.Failed? ==> r.0 == st
    ensures hasUser && reply == Done && !st.liked ==> r.0.likes == st.likes + 1 && r.0.liked
    ensures hasUser && reply == Done && st.liked ==>
      r.0.likes == (if st.likes - 1 < 0 then 0 else st.likes - 1) && !r.0.liked
    ensures r.0.saved == st.saved
    ensures st.likes >= 0 ==> r.0.likes >= 0
  {
    if !hasUser then (st, None)
    else if st.liked then
      (if reply == Done then st.(likes := if st.likes - 1 < 0 then 0 else st.likes - 1, liked := false) else st,
       Some(UnlikeCall))
    else
      (if reply == Done then st.(likes := st.likes + 1, liked := true) else st, Some(LikeCall))
  }

  /** `handleSave`: toggles only the saved flag, and only if the call
      returned. */
  function HandleSave(st: ActionState, hasUser: bool, reply: Reply): (r: (ActionState, Option<Call>))
    ensures !hasUser ==> r == (st, None)
    ensures hasUser ==> r.1 == Some(if st.saved then UnsaveCall else SaveCall)
    ensures r.0.likes == st.likes && r.0.liked == st.liked
    ensures r.0.saved == (if hasUser && reply == Done then !st.saved else st.saved)
  {
    if !hasUser then (st, None)
    else
      (if reply == Done then st.(saved := !st.saved) else st,
       Some(if st.saved then UnsaveCall else SaveCall))
  }

  /** `handleShare`: shares through the "copy" platform when a user is
      present, and changes no state. */
  function HandleShare(hasUser: bool): (call: Option<Call>)
    ensures call.Some? <==> hasUser
    ensures call.Some? ==> call.value == ShareCall("copy")
  {
    if hasUser then Some(ShareCall("copy")) else None
  }

  /** The share click carried through the facade: with a user it records one
      "copy" share by that user and copies the curation's link, and the bar's
      own state does not change. */
  lemma ShareCopiesLink(st: ActionState, store: Social.Store, user: Auth.UserId, curationId: Social.CurationId,
                        origin: string, encode: string -> string)
    ensures Step(st, true, ClickShare) == st
    ensures
      var (after, status, action) :=
        Social.ShareCuration(store, Some(user), curationId, HandleShare(true).value.platform, origin, encode, Done);
      && status == Social.Written
      && after.shares == store.shares + [Social.Share(user, curationId, "copy")]
      && action == Social.CopyLink(Social.CurationUrl(origin, curationId))
  {
  }

  /** The status check on mount: with a user, each flag takes the value its
      lookup returned; a lookup that threw leaves its flag alone. */
  function LoadStatus(st: ActionState, hasUser: bool, liked: Option<bool>, saved: Option<bool>): (r: ActionState)
    ensures r.likes == st.likes
    ensures r.liked == (if hasUser && liked.Some? then liked.value else st.liked)
    ensures r.saved == (if hasUser && saved.Some? then saved.value else st.saved)
  {
    if !hasUser then st
    else
      st.(liked := if liked.Some? then liked.value else st.liked,
          saved := if saved.Some? then saved.value else st.saved)
  }

  /** Liking and then unliking restores both the counter and the flag, as long
      as the counter was not negative. */
  lemma LikeThenUnlike(st: ActionState)
    requires !st.liked && st.likes >= 0
    ensures HandleLike(HandleLike(st, true, Done).0, true, Done).0 == st
  {
  }

  /** Unliking from 0 keeps the counter at 0. */
  lemma UnlikeClampsAtZero(st: ActionState)
    requires st.liked && st.likes == 0
    ensures HandleLike(st, true, Done).0.likes == 0
  {
  }

  /** What can happen to the bar. */
  datatype Event =
    | ClickLike(like: Reply)
    | ClickSave(save: Reply)
    | ClickShare
    | Loaded(likedReply: Option<bool>, savedReply: Option<bool>)

  function Step(st: ActionState, hasUser: bool, e: Event): ActionState
  {
    match e
    case ClickLike(reply) => HandleLike(st, hasUser, reply).0
    case ClickSave(reply) => HandleSave(st, hasUser, reply).0
    case ClickShare => st
    case Loaded(l, s) => LoadStatus(st, hasUser, l, s)
  }

  function Run(st: ActionState, hasUser: bool, events: seq<Event>): ActionState
    decreases |events|
  {
    if |events| == 0 then st else Run(Step(st, hasUser, events[0]), hasUser, events[1..])
  }

  /** Whatever the clicks, replies and status loads, a counter that started
      non-negative never goes below zero, even when the loaded flag and the
      counter disagree. */
  lemma {:induction false} RunKeepsCounterNonNegative(st: ActionState, hasUser: bool, events: seq<Event>)
    requires st.likes >= 0
    ensures Run(st, hasUser, events).likes >= 0
    decreases |events|
  {
    if |events| > 0 {
      var next := Step(st, hasUser, events[0]);
      assert next.likes >= 0;
      RunKeepsCounterNonNegative(next, hasUser, events[1..]);
    }
  }

  /** Saving never touches the counter or the liked flag, over any run of
      save clicks. */
  lemma {:induction false} SavesLeaveLikesAlone(st: ActionState, hasUser: bool, events: seq<Event>)
    requires forall k :: 0 <= k < |events| ==> events[k].ClickSave?
    ensures Run(st, hasUser, events).likes == st.likes
    ensures Run(st, hasUser, events).liked == st.liked
    decreases |events|
  {
    if |events| > 0 {
      SavesLeaveLikesAlone(Step(st, hasUser, events[0]), hasUser, events[1..]);
    }
  }
  // ---------------------------------------------------------------------
  // The like button wired to the social facade
  // ---------------------------------------------------------------------

  /** The like flag shown agrees with the likes table. */
  predicate InSync(st: ActionState, store: Social.Store, user: Auth.UserId, curationId: Social.CurationId)
  {
    st.liked == ((user, curationId) in store.likes)
  }

  /** The facade call `handleLike` makes, and what it did to the store. */
  function LikeWrite(st: ActionState, store: Social.Store, user: Auth.UserId, curationId: Social.CurationId,
                     reply: Reply): (Social.Store, Social.WriteStatus)
  {
    if st.liked then Social.UnlikeCuration(store, Some(user), curationId, reply)
    else Social.LikeCuration(store, Some(user), curationId, reply)
  }

  /** `handleLike` on top of the facade as written: `likeCuration` and
      `unlikeCuration` catch their own errors, so the awaited call always
      resolves and the handler updates whatever the write did. */
  function LikeAsWritten(st: ActionState, store: Social.Store, user: Auth.UserId, curationId: Social.CurationId,
                         reply: Reply): (ActionState, Social.Store)
  {
    (HandleLike(st, true, Done).0, LikeWrite(st, store, user, curationId, reply).0)
  }

  /** A failed like still shows as liked and counted, while the likes table
      is unchanged: the bar and the store disagree. */
  lemma FailedLikeStillCounted(st: ActionState, store: Social.Store, user: Auth.UserId,
                               curationId: Social.CurationId, message: string)
    requires InSync(st, store, user, curationId) && !st.liked
    ensures
      var (shown, after) := LikeAsWritten(st, store, user, curationId, Failed(message));
      && after == store
      && shown.liked && shown.likes == st.likes + 1
      && !Social.IsLiked(after, Some(user), curationId, false)
      && !InSync(shown, after, user, curationId)
  {
  }

  /** The evidently intended wiring: the handler updates only when the
      facade reports the write as made. */
  function LikeReported(st: ActionState, store: Social.Store, user: Auth.UserId, curationId: Social.CurationId,
                        reply: Reply): (ActionState, Social.Store)
  {
    var (after, status) := LikeWrite(st, store, user, curationId, reply);
    (HandleLike(st, true, if status == Social.Written then Done else Failed("")).0, after)
  }

  /** With that wiring the flag stays in step with the likes table whatever
      the reply, and the counter moves only when the table does. */
  lemma LikeReportedKeepsSync(st: ActionState, store: Social.Store, user: Auth.UserId,
                              curationId: Social.CurationId, reply: Reply)
    requires InSync(st, store, user, curationId)
    ensures InSync(LikeReported(st, store, user, curationId, reply).0,
                   LikeReported(st, store, user, curationId, reply).1, user, curationId)
    ensures LikeReported(st, store, user, curationId, reply).1 == store ==>
      LikeReported(st, store, user, curationId, reply).0 == st
  {
  }
}

=== FILE: text.dfy ===
/**
 * String helpers shared by the form validators: the whitespace class that
 * JavaScript's `String.prototype.trim` and the regular-expression class `\s`
 * both use, `trim` itself, and an ASCII model of `toLowerCase`.
 */
module Text {
  import opened Wrappers

  /** The characters ECMAScript counts as WhiteSpace or LineTerminator. `trim`
      strips exactly these, and `\s` matches exactly these. */
  predicate IsSpace(c: char)
  {
    || c == '\t' || c == '\n' || c == '\U{000B}' || c == '\U{000C}' || c == '\r'
    || c == ' ' || c == '\U{00A0}' || c == '\U{1680}'
    || ('\U{2000}' <= c <= '\U{200A}')
    || c == '\U{2028}' || c == '\U{2029}' || c == '\U{202F}' || c == '\U{205F}'
    || c == '\U{3000}' || c == '\U{FEFF}'
  }

  predicate AllSpace(s: string)
  {
    forall k :: 0 <= k < |s| ==> IsSpace(s[k])
  }

  predicate NoSpace(s: string)
  {
    forall k :: 0 <= k < |s| ==> !IsSpace(s[k])
  }

  /** Number of whitespace characters at the start of `s`. */
  function LeadingSpaces(s: string): (n: nat)
    ensures n <= |s|
    ensures forall k :: 0 <= k < n ==> IsSpace(s[k])
    ensures n < |s| ==> !IsSpace(s[n])
  {
    if |s| == 0 || !IsSpace(s[0]) then 0 else 1 + LeadingSpaces(s[1..])
  }

  /** Number of whitespace characters at the end of `s`. */
  function TrailingSpaces(s: string): (n: nat)
    ensures n <= |s|
    ensures forall k :: |s| - n <= k < |s| ==> IsSpace(s[k])
    ensures n < |s| ==> !IsSpace(s[|s| - 1 - n])
  {
    if |s| == 0 || !IsSpace(s[|s| - 1]) then 0 else 1 + TrailingSpaces(s[..|s| - 1])
  }

  /** `s.trim()`: the slice of `s` left after dropping whitespace at both ends.
      The contract pins the result down uniquely: it is a slice of `s` that
      starts right after the leading whitespace, everything after it is
      whitespace, and it neither starts nor ends with whitespace. */
  function Trim(s: string): (r: string)
    ensures |r| <= |s|
    ensures LeadingSpaces(s) + |r| <= |s|
    ensures r == s[LeadingSpaces(s)..LeadingSpaces(s) + |r|]
    ensures forall k :: LeadingSpaces(s) + |r| <= k < |s| ==> IsSpace(s[k])
    ensures |r| > 0 ==> !IsSpace(r[0]) && !IsSpace(r[|r| - 1])
    ensures r == [] <==> AllSpace(s)
  {
    var lead := LeadingSpaces(s);
    if lead == |s| then [] else s[lead..|s| - TrailingSpaces(s)]
  }

  /** A string without whitespace is its own trim. */
  lemma TrimNoSpace(s: string)
    requires NoSpace(s)
    ensures Trim(s) == s
  {
    if |s| > 0 {
      assert !IsSpace(s[|s| - 1]);
    }
  }

  /** Trimming twice is trimming once. */
  lemma TrimIdempotent(s: string)
    ensures Trim(Trim(s)) == Trim(s)
  {
    var t := Trim(s);
    if |t| > 0 {
      assert !IsSpace(t[0]);
      assert !IsSpace(t[|t| - 1]);
    }
  }

  /** ASCII model of `toLowerCase`: 'A'..'Z' map to 'a'..'z', everything else
      is left alone. */
  function LowerChar(c: char): (r: char)
    ensures 'A' <= c <= 'Z' ==> 'a' <= r <= 'z' && r as int - c as int == 32
    ensures !('A' <= c <= 'Z') ==> r == c
  {
    if 'A' <= c <= 'Z' then (c as int + 32) as char else c
  }

  function Lower(s: string): (r: string)
    ensures |r| == |s|
    ensures forall k :: 0 <= k < |s| ==> r[k] == LowerChar(s[k])
  {
    seq(|s|, k requires 0 <= k < |s| => LowerChar(s[k]))
  }

  /** The UTF-16 code units of a string, which is what JavaScript's `length`
      counts and `charCodeAt` returns: scalar values above U+FFFF become a
      surrogate pair. */
  function Utf16(s: string): (units: seq<int>)
    ensures forall k :: 0 <= k < |units| ==> 0 <= units[k] < 0x1_0000
    ensures |s| <= |units| <= 2 * |s|
  {
    if |s| == 0 then []
    else
      var v := s[0] as int;
      var first := if v < 0x1_0000 then [v]
        else [0xD800 + (v - 0x1_0000) / 0x400, 0xDC00 + (v - 0x1_0000) % 0x400];
      first + Utf16(s[1..])
  }

  /** `s.startsWith(prefix)`. */
  predicate StartsWith(s: string, prefix: string)
  {
    |prefix| <= |s| && s[..|prefix|] == prefix
  }

  /** A string starts with `prefix` iff it is `prefix` followed by the rest. */
  lemma StartsWithSplit(s: string, prefix: string)
    ensures StartsWith(s, prefix) <==> |prefix| <= |s| && s == prefix + s[|prefix|..]
  {
    if |prefix| <= |s| {
      assert s == s[..|prefix|] + s[|prefix|..];
    }
  }

  /** `prefix + t` starts with `prefix`, and `t` is what follows it. */
  lemma StartsWithConcat(prefix: string, t: string)
    ensures StartsWith(prefix + t, prefix) && (prefix + t)[|prefix|..] == t
  {
    assert (prefix + t)[..|prefix|] == prefix;
  }

  predicate IsHighSurrogate(u: int)
  {
    0xD800 <= u < 0xDC00
  }

  predicate IsLowSurrogate(u: int)
  {
    0xDC00 <= u < 0xE000
  }

  /** The scalar value a surrogate pair stands for. */
  function PairValue(hi: int, lo: int): (v: int)
    requires IsHighSurrogate(hi) && IsLowSurrogate(lo)
    ensures 0x1_0000 <= v < 0x11_0000
  {
    (hi - 0xD800) * 0x400 + (lo - 0xDC00) + 0x1_0000
  }

  /** Decoding UTF-16: a high surrogate followed by a low one is one
      character, any other unit below 2^16 that is not a surrogate is itself;
      an unpaired surrogate or an out-of-range unit reads as `None`. */
  function FromUtf16(units: seq<int>): Option<string>
    decreases |units|
  {
    if |units| == 0 then Some([])
    else if |units| >= 2 && IsHighSurrogate(units[0]) && IsLowSurrogate(units[1]) then
      match FromUtf16(units[2..])
      case None => None
      case Some(rest) => Some([PairValue(units[0], units[1]) as char] + rest)
    else if 0 <= units[0] < 0x1_0000 && !IsHighSurrogate(units[0]) && !IsLowSurrogate(units[0]) then
      match FromUtf16(units[1..])
      case None => None
      case Some(rest) => Some([units[0] as char] + rest)
    else None
  }

  /** Decoding the code units of a string gives the string back. */
  lemma {:induction false} Utf16RoundTrip(s: string)
    ensures FromUtf16(Utf16(s)) == Some(s)
    decreases |s|
  {
    if |s| > 0 {
      var c, rest := s[0], s[1..];
      Utf16RoundTrip(rest);
      assert s == [c] + rest;
      Utf16Cons(c, rest);
      DecodeOne(c, Utf16(rest), rest);
    }
  }

  /** Decoding the units of one character followed by units that decode to
      `rest` gives that character followed by `rest`. */
  lemma DecodeOne(c: char, tail: seq<int>, rest: string)
    requires FromUtf16(tail) == Some(rest)
    ensures FromUtf16(Utf16([c]) + tail) == Some([c] + rest)
  {
    var v := c as int;
    if v < 0x1_0000 {
      assert Utf16([c]) == [v];
      assert ([v] + tail)[1..] == tail;
    } else {
      var hi, lo := 0xD800 + (v - 0x1_0000) / 0x400, 0xDC00 + (v - 0x1_0000) % 0x400;
      assert Utf16([c]) == [hi, lo];
      assert ([hi, lo] + tail)[2..] == tail;
      assert PairValue(hi, lo) == v;
    }
  }

  /** Encoding what a unit sequence decodes to gives the units back, so each
      string has exactly one well-formed UTF-16 form and `Utf16` is it. */
  lemma {:induction false} FromUtf16Exact(units: seq<int>)
    requires FromUtf16(units).Some?
    ensures Utf16(FromUtf16(units).value) == units
    decreases |units|
  {
    if |units| > 0 {
      var s := FromUtf16(units).value;
      if |units| >= 2 && IsHighSurrogate(units[0]) && IsLowSurrogate(units[1]) {
        var rest := FromUtf16(units[2..]).value;
        var c := PairValue(units[0], units[1]) as char;
        assert s == [c] + rest;
        FromUtf16Exact(units[2..]);
        PairEncodes(units[0], units[1]);
        Utf16Cons(c, rest);
        assert units == [units[0], units[1]] + units[2..];
      } else {
        var rest := FromUtf16(units[1..]).value;
        var c := units[0] as char;
        assert s == [c] + rest;
        FromUtf16Exact(units[1..]);
        Utf16Cons(c, rest);
        assert units == [units[0]] + units[1..];
      }
    }
  }

  /** The code units of one character followed by a string. */
  lemma Utf16Cons(c: char, rest: string)
    ensures Utf16([c] + rest) == Utf16([c]) + Utf16(rest)
  {
    assert ([c] + rest)[1..] == rest;
    assert [c][1..] == [];
  }

  /** The character a surrogate pair decodes to is encoded as that pair. */
  lemma PairEncodes(hi: int, lo: int)
    requires IsHighSurrogate(hi) && IsLowSurrogate(lo)
    ensures Utf16([PairValue(hi, lo) as char]) == [hi, lo]
  {
    var v := PairValue(hi, lo);
    SplitPair(hi - 0xD800, lo - 0xDC00);
    assert [v as char][1..] == [];
  }

  /** Division by 0x400 recovers the two halves of a surrogate pair. */
  lemma SplitPair(a: int, b: int)
    requires 0 <= a < 0x400 && 0 <= b < 0x400
    ensures (a * 0x400 + b) / 0x400 == a && (a * 0x400 + b) % 0x400 == b
  {
  }

  /** A string of characters from the Basic Multilingual Plane has one code
      unit per character, each equal to the character's value. */
  lemma {:induction false} Utf16Bmp(s: string)
    requires forall k :: 0 <= k < |s| ==> s[k] as int < 0x1_0000
    ensures |Utf16(s)| == |s|
    ensures forall k :: 0 <= k < |s| ==> Utf16(s)[k] == s[k] as int
  {
    if |s| > 0 {
      Utf16Bmp(s[1..]);
    }
  }
}

=== FILE: wrappers.dfy ===
/** Optional values, results with an error, and the reply of a remote call,
    used wherever the modelled code has `null`, a thrown error or a rejected
    promise. */
module Wrappers {

  datatype Option<+T> = None | Some(value: T)

  datatype Result<+T, +E> = Ok(value: T) | Err(error: E)

  /** What a remote write or query reported: success, or an error whose
      message may be empty. */
  datatype Reply = Done | Failed(message: string)
}
